=== FILE: README.md ===
# Real-estate listings marketplace: a Dafny model of its decision logic

This project models the deterministic logic of a listings marketplace. The system has three parts: a NestJS backend, a Next.js web client and a shared types package. Everything is modelled as immutable datatypes and pure functions:

- **Listings service.** This is the listing lifecycle: create (always a DRAFT), filtered and paginated search, read, partial update, delete, status change with a write-once `publishedAt`, and image upload and deletion. The database is a pair of finite maps (listings and images). A store invariant, `ListingsService.Valid`, is proved to hold after every operation.
- **Authorization.** The listing ownership guard and the roles guard are pure decisions. The listings routes compose the JWT check, the guards and the service in the order the controller declares them.
- **Authentication.** Register, login, profile read and update, and the per-request identity check all work over a users table. The auth routes wrap failures in `success: false` envelopes and set the token cookie. The cookie lifetime is parsed from the configured expiry (`15m`, `1h`, …).
- **Request validation.** The query-string and create-body validators follow their class-validator rules. Each validator is paired with a converse proof. A query validator accepts every query that meets the field rules, with whichever of page, limit, sortBy and sortOrder are spelled out, and fills in the defaults for the rest. The create-body validator accepts every well-formed body unchanged.
- **Web client.** The listing form covers its defaults, its submit checks in order, and the request body it sends. The listing card covers its text, picture, price, location and badge choices. The header's language switcher rewrites paths, and the listings API call builds its query string.

The serialized columns (`title`, `description`, `features`) are written with a self-delimiting text codec (`StoredJson`). Its decode-after-encode round trip is proved, so reading a listing back gives the texts that were written. The model relies only on that round trip.

Fresh ids, the current time, password hashing and checking, and token signing are parameters: `newId`, `now`, `passwordHash`, `matches` and `sign`. The database's `ORDER BY` is also a parameter: `order`, a permutation of the listing ids.

An out-of-range `page` or `limit` is rejected with 400 by class-validator's `@Min`/`@Max` rules; nothing clamps it. `ListingDtos.ValidateQuery` returns an error for such a query.

## Model

| member | source | states |
|---|---|---|
| `ListingTypes.ParseStatus` | packages/shared/src/types/listing.types.ts:22-30 | A string is accepted exactly when it is the wire name of a status, and it parses back to that status. |
| `ListingTypes.ParsePropertyType` | packages/shared/src/types/listing.types.ts:7-14 | Enum membership for property types: accepted exactly for the six wire names, and inverse to the name function. |
| `ListingTypes.ParseDealType` | packages/shared/src/types/listing.types.ts:16-20 | Enum membership for deal types, inverse to the name function. |
| `StoredJson.DecodeEncodeString` | apps/api/src/listings/listings.service.ts:17-18 | One encoded string followed by any text decodes to that string and leaves the text untouched, so encoded strings can be concatenated. |
| `StoredJson.DecodeEncodeLocalized` | apps/api/src/listings/listings.service.ts:17-18 | The stored form of a localized text (en, ru, uz, each possibly absent) reads back as the same text. |
| `StoredJson.DecodeEncodeEntries` | apps/api/src/listings/listings.service.ts:19 | A list of feature entries reads back entry for entry. |
| `StoredJson.DecodeEncodeFeatures` | apps/api/src/listings/listings.service.ts:19 | A features record reads back as written. |
| `ListingDtos.ValidateQuery` | apps/api/src/listings/dtos/query-listing.dto.ts:14-148 | These hold for an accepted query: page ≥ 1, limit in 1..100, non-negative bounds. Defaults are page 1, limit 20, sortBy `createdAt` and sortOrder `desc`. A limit or page out of range is an error, never clamped. Enumeration fields must be members. City, district and owner pass through unchanged. An accepted query string is exactly the one its result spells back, with whichever defaulted fields it carried. So no number was dropped, floored or reinterpreted on the way. |
| `ListingDtos.AcceptedQueryNumbersWellFormed` | apps/api/src/listings/dtos/query-listing.dto.ts:14-118 | An accepted query had price and area bounds that are numbers ≥ 0, so NaN and negatives are rejected. Page, limit and room bounds were whole numbers in range, so 2.5 is rejected, not floored. |
| `ListingDtos.ValidateQueryAcceptsValid` | apps/api/src/listings/dtos/query-listing.dto.ts:14-148 | Every query meeting the field rules is accepted, whichever of page, limit, sortBy and sortOrder the request spells out. The spelled fields come out as given and the unspelled ones take their defaults; a fully spelled query comes out unchanged. This is the converse of the validator's guarantees. |
| `ListingDtos.EmptyQueryGetsDefaults` | apps/api/src/listings/dtos/query-listing.dto.ts:14-148 | A request with no query parameters is accepted as page 1, limit 20, sortBy `createdAt`, sortOrder `desc`, with no filters. |
| `ListingDtos.InvertedPriceRangeAccepted` | apps/api/src/listings/dtos/query-listing.dto.ts:67-85 | No rule relates two fields: a minimum price above the maximum is accepted. |
| `ListingDtos.ValidateCreate` | apps/api/src/listings/dtos/create-listing.dto.ts:33-171 | An accepted payload has a non-empty city, a price ≥ 0, and non-negative area and counts. A missing required field is an error, and so is a type that is not an enum member, an empty city, or a negative price or area. The accepted payload keeps the given texts, city, price, currency and features. An accepted body is exactly the one its result sends back, so no field was dropped or rounded. |
| `ListingDtos.AcceptedCreateCountsWellFormed` | apps/api/src/listings/dtos/create-listing.dto.ts:120-156 | An accepted body had whole, non-negative rooms, bedrooms, bathrooms, floor and total floors, and a non-negative area. A negative or fractional count is rejected, not dropped. |
| `ListingDtos.ValidateCreateAcceptsValid` | apps/api/src/listings/dtos/create-listing.dto.ts:33-171 | Every payload meeting the field rules passes validation unchanged. |
| `ListingDtos.ZeroPriceUntitledAccepted` | apps/api/src/listings/dtos/create-listing.dto.ts:16-31 | A price of 0 and a title with no language at all are both accepted. |
| `ListingsService.FormatListing` | apps/api/src/listings/listings.service.ts:371-380 | Reading a row succeeds exactly when its serialized columns parse. An empty column reads as null. Every other column is returned as stored. |
| `ListingsService.Create` | apps/api/src/listings/listings.service.ts:16-62 | The new listing is stored under the fresh id. It is a DRAFT owned by the given owner, with no `publishedAt` and zero view and favorite counts. Property and deal type, city, district, address, coordinates, price, area, rooms, bedrooms, bathrooms, floor and total floors are stored as given. Currency defaults to UZS when absent or empty. Features are null exactly when absent. Reading it back gives the given title, description and features. No other listing changes, and the store invariant is kept. |
| `ListingsService.MatchingPositions` | apps/api/src/listings/listings.service.ts:87-115 | The positions of the ordering whose rows match the filter, strictly increasing: a position is listed exactly when its row matches. |
| `ListingsService.MatchingPositionsCount` | apps/api/src/listings/listings.service.ts:87-142 | Over a duplicate-free ordering, the number of matching positions equals the number of distinct matching ids. |
| `ListingsService.MatchingTotal` | apps/api/src/listings/listings.service.ts:87-142 | The filtered rows are exactly as many as the matching listings in the store, which is what `count({ where })` returns. |
| `ListingsService.MatchingRows` | apps/api/src/listings/listings.service.ts:87-115 | The rows are those at the matching positions, in the database's order. Every row returned satisfies the filter `Matches`, and every row that satisfies it is returned. `Matches` defaults the status to ACTIVE and applies the string filters only when they are non-empty. A bound on a column that is null never matches. |
| `ListingsService.FindAll` | apps/api/src/listings/listings.service.ts:64-158 | A page holds at most `limit` rows, all matching. With no status filter, only ACTIVE rows are returned. `total` counts every matching listing in the store and `totalPages` is its ceiling over `limit`. The page holds exactly min(limit, total − skip) rows, where skip is `(page-1)*limit`. Its i-th row is the (skip+i)-th matching row in the database's order. A page has rows exactly when its number is at most `totalPages`. |
| `ListingsService.Offset` | apps/api/src/listings/listings.service.ts:84 | The number of rows skipped is `(page-1)*limit`. |
| `ListingsService.Window` | apps/api/src/listings/listings.service.ts:122-124 | `skip`/`take`: exactly min(take, n − skip) rows, the i-th being row skip+i. |
| `ListingsService.PageOf` | apps/api/src/listings/listings.service.ts:84-155 | The response built from the matching rows: its meta carries page, limit, total and the ceiling of total over limit. Its data are the window at `(page-1)*limit`, non-empty exactly when page ≤ totalPages. |
| `ListingsService.PageWithinCount` | apps/api/src/listings/listings.service.ts:84-155 | Skipping `(page-1)*limit` rows leaves some rows exactly when `page ≤ ceil(total/limit)`. |
| `ListingsService.FindOne` | apps/api/src/listings/listings.service.ts:160-194 | An absent id is NotFound; otherwise the result is the stored row, formatted. |
| `ListingsService.Merge` | apps/api/src/listings/listings.service.ts:212-235 | Each column the body supplies takes the supplied value: texts and features are written serialized, and nullable columns as given. Each column the body leaves out keeps its value. The other columns are never touched: id, owner, status, `publishedAt` and the counters. |
| `ListingsService.MergeEmptyIsIdentity` | apps/api/src/listings/listings.service.ts:212-235 | An update with no fields changes nothing. |
| `ListingsService.MergeIdempotent` | apps/api/src/listings/listings.service.ts:212-235 | Applying an update twice equals applying it once. |
| `ListingsService.MergeReadBack` | apps/api/src/listings/listings.service.ts:212-235 | The merged row still parses. Its title, description and features read back as supplied, or as before when absent; city, price and district likewise. The other columns follow from `Merge`'s own contract. |
| `ListingsService.Update` | apps/api/src/listings/listings.service.ts:196-258 | A missing listing is NotFound, and a requester other than the stored owner is Forbidden, whatever their role. Otherwise the row is replaced by its merge and the invariant is kept. |
| `ListingsService.ImagesWithout` | apps/api/src/listings/listings.service.ts:276-278 | Deleting a listing removes exactly its images and keeps every other image as it was. |
| `ListingsService.Remove` | apps/api/src/listings/listings.service.ts:260-281 | NotFound and Forbidden follow the same rules as Update. Otherwise the listing and its images are gone and the invariant is kept. Every other listing and every image of another listing stay as they were. |
| `ListingsService.ChangeStatus` | apps/api/src/listings/listings.service.ts:292-300 | The status becomes the requested one, or stays as it was when none is given. `publishedAt` is set to `now` only by a change to ACTIVE while it is null; otherwise it is kept. |
| `ListingsService.PublishedAtWrittenOnce` | apps/api/src/listings/listings.service.ts:296-299 | Once set, `publishedAt` survives any sequence of later status changes. |
| `ListingsService.PublishedAtIsFirstActivation` | apps/api/src/listings/listings.service.ts:296-299 | From an unpublished listing, a sequence of status changes publishes it exactly when one of them is to ACTIVE. The time recorded is that of the first such change. |
| `ListingsService.UpdateStatus` | apps/api/src/listings/listings.service.ts:283-319 | Fails only for a missing listing. Otherwise it applies the status change to that listing alone and keeps the invariant. |
| `ListingsService.UploadImage` | apps/api/src/listings/listings.service.ts:321-342 | Fails only for a missing listing, with no ownership check. The new image has the given url and order and no thumbnail or caption. |
| `ListingsService.DeleteImage` | apps/api/src/listings/listings.service.ts:344-369 | A missing image is NotFound, and a requester who does not own the image's listing is Forbidden. Otherwise exactly that image is removed and every sibling is untouched. |
| `AuthService.FindFirst` | apps/api/src/auth/auth.service.ts:25-27 | The lookup returns the first record satisfying the condition, or none when no record does. |
| `AuthService.MapUserToType` | apps/api/src/auth/auth.service.ts:154-167 | The public form keeps the id, email, first and last name, phone, role, status and email-verified flag. Its type has no password hash field. |
| `AuthService.PublicUserIgnoresHash` | apps/api/src/auth/auth.service.ts:154-167 | The public form of a user does not depend on the stored password hash. |
| `AuthService.Patched` | apps/api/src/auth/auth.service.ts:125-127 | `dto.f !== undefined ? dto.f : user.f`: a left-out field keeps the column, an explicit null clears it, a value replaces it. |
| `AuthService.OrNull` | apps/api/src/auth/auth.service.ts:41-43 | An absent or empty optional name or phone is stored as null. |
| `AuthService.Register` | apps/api/src/auth/auth.service.ts:23-50 | Fails with Conflict exactly when the email is taken, and then no user is created. On success one ACTIVE USER is appended, with the given hash and unverified email, and the table's unique indexes are kept. |
| `AuthService.Login` | apps/api/src/auth/auth.service.ts:55-92 | An unknown email gives "Invalid credentials". An inactive account gives "User account is not active" whatever the password. A wrong password gives "Invalid credentials". Success means ACTIVE with a matching password, and the token is signed over (id, email, role). |
| `AuthService.LoginFailuresIndistinguishable` | apps/api/src/auth/auth.service.ts:61-75 | An unknown email and a wrong password produce the same error. |
| `AuthService.GetProfile` | apps/api/src/auth/auth.service.ts:97-108 | NotFound exactly when no user has the id; otherwise the stored user's public form. |
| `AuthService.UpdateProfile` | apps/api/src/auth/auth.service.ts:113-133 | NotFound for a missing user. Otherwise only first name, last name and phone change. Each is kept when left out, cleared by an explicit null, and set to a supplied string, the empty one included. Email, role and status are untouched, and so is every other user. |
| `AuthService.ValidateUser` | apps/api/src/auth/auth.service.ts:138-149 | Null when no user has the id. A result is always an ACTIVE user with that id. With unique ids, the result is null exactly when there is no ACTIVE user with the id. |
| `Guards.OwnershipGuard` | apps/api/src/listings/guards/listing-ownership.guard.ts:15-46 | No user is Forbidden. An ADMIN passes without a lookup, even for a missing listing. A non-admin is NotFound for a missing listing, and otherwise passes exactly when they are the stored owner. The guard only reads the table. |
| `Guards.OwnershipGuardPassesIff` | apps/api/src/listings/guards/listing-ownership.guard.ts:24-45 | The guard passes exactly for an ADMIN or for the owner of an existing listing. |
| `Guards.RolesGuard` | apps/api/src/auth/guards/roles.guard.ts:10-36 | With no required roles every request passes, even without a user. Otherwise a missing user is Forbidden, and a user passes exactly when their role is among the required ones. |
| `Guards.RoleDeniedNamesEachRole` | apps/api/src/auth/guards/roles.guard.ts:28-33 | The denial message contains the wire name of every required role. |
| `Guards.AdminOnlyDenialMessage` | apps/api/src/auth/guards/roles.guard.ts:28-33 | For the ADMIN-only route the message is the fixed prefix followed by `ADMIN`. |
| `Text.JoinAppend` | apps/web/src/lib/api/listings.ts:34 | Joining two non-empty lists is joining each and putting one separator between them. |
| `Text.JoinContains` | apps/api/src/auth/guards/roles.guard.ts:29 | Every element of a list occurs in the list joined with a separator. |
| `ListingsController.Authenticate` | apps/api/src/auth/auth.service.ts:138-149 | A request is authenticated only with a token subject naming an existing ACTIVE user. With unique ids, exactly then. |
| `ListingsController.CreateRoute` | apps/api/src/listings/listings.controller.ts:31-42 | Authentication comes before body validation. The new listing's owner is the authenticated caller and never taken from the body, and it starts as a DRAFT. On success the result is the service's create of the validated body under that owner. |
| `ListingsController.FindAllRoute` | apps/api/src/listings/listings.controller.ts:44-49 | The route is public. It fails exactly when the query is invalid, and returns at most `limit` rows, all ACTIVE when no status is asked for. On success the page is the service's `FindAll` of the validated query. |
| `ListingsController.UpdateRoute` | apps/api/src/listings/listings.controller.ts:59-73 | JWT check, then the ownership guard, then the service. The update succeeds exactly for the authenticated stored owner. Its result is then the service's update: the merged row stored, the images kept, and the view of the new row returned. |
| `ListingsController.RemoveRoute` | apps/api/src/listings/listings.controller.ts:75-86 | Same chain as update: the delete succeeds exactly for the authenticated stored owner. The new store is then the service's: the listing and its images gone, every other image kept. |
| `ListingsController.AdminNonOwnerCannotUpdate` | apps/api/src/listings/listings.controller.ts:59-73 | An ADMIN who does not own the listing passes the guard and is then refused by the service with its "update" Forbidden. |
| `ListingsController.AdminNonOwnerCannotRemove` | apps/api/src/listings/listings.controller.ts:75-86 | Likewise for deletion, with the service's "delete" Forbidden. |
| `ListingsController.NonOwnerStoppedByGuard` | apps/api/src/listings/guards/listing-ownership.guard.ts:39-43 | A non-admin non-owner is stopped by the guard's own Forbidden before the service runs. |
| `ListingsController.UpdateStatusRoute` | apps/api/src/listings/listings.controller.ts:88-102 | Only an authenticated ADMIN gets past the roles guard. The change then succeeds exactly for an existing listing and a status field that is left out or a valid name. An explicit null or an invalid name is a server error. On success the result is the service's status change, which leaves the images alone and returns the view of the changed row. |
| `ListingsController.RequestedStatus` | apps/api/src/listings/listings.service.ts:292-300 | A left-out status leaves the column alone. A null, or a string that is not a status name, is refused. A status name asks for that status. |
| `ListingsController.StatusChangeNeedsAdmin` | apps/api/src/listings/listings.controller.ts:88-102 | A successful status change was requested by an existing ACTIVE ADMIN. |
| `ListingsController.UploadImageRoute` | apps/api/src/listings/listings.controller.ts:104-117 | Any authenticated user may upload an image to any existing listing. A missing listing is NotFound. A body without `url` passes the route and fails at the insert of a required column, with a server error. Otherwise the stored image carries the listing, the url and the order from the request, and nothing else changes. |
| `ListingsController.UploadIgnoresOwnership` | apps/api/src/listings/listings.controller.ts:104-117 | The upload succeeds for a non-admin who does not own the listing. |
| `ListingsController.DeleteImageRoute` | apps/api/src/listings/listings.controller.ts:119-133 | Succeeds exactly for the authenticated owner of the image's listing, and removes only that image. The new store is the service's, so every other image is unchanged. |
| `ListingsController.InactiveUserRefused` | apps/api/src/auth/auth.service.ts:143-145 | A suspended or unverified account is refused on every authenticated route. |
| `AuthController.MaxAgeFromExpiry` | apps/api/src/auth/auth.controller.ts:144-163 | An unset or empty setting means `15m`. A setting that is not all digits followed by one of s, m, h, d gives 900000. A matching setting gives a whole number of seconds. |
| `AuthController.DigitsValueOfDigitsOf` | apps/api/src/auth/auth.controller.ts:152 | Reading the decimal rendering of a number gives the number back. |
| `AuthController.MaxAgeOfSetting` | apps/api/src/auth/auth.controller.ts:146-162 | `<n><unit>` gives n × 1000, 60000, 3600000 or 86400000 ms. |
| `AuthController.MaxAgeOfDigits` | apps/api/src/auth/auth.controller.ts:146-162 | Any non-empty run of digits followed by a unit gives the digits' decimal value times the unit's milliseconds. |
| `AuthController.LeadingZeroIgnored` | apps/api/src/auth/auth.controller.ts:152 | `parseInt` ignores a leading zero: prefixing "0" keeps the digits all digits and their value the same. |
| `AuthController.MaxAgeLeadingZeros` | apps/api/src/auth/auth.controller.ts:146-162 | "015m" gives the same 900000 ms as "15m", and "007d" gives 604800000 ms. |
| `AuthController.DefaultExpiryParses` | apps/api/src/auth/auth.controller.ts:145 | The default `15m` matches the pattern and gives the fallback value. |
| `AuthController.MaxAgeExamples` | apps/api/src/auth/auth.controller.ts:145-162 | Unset, empty and `15m` all give 900000; `1h` gives 3600000 and `7d` gives 604800000. |
| `AuthController.MaxAgeRejectedSettings` | apps/api/src/auth/auth.controller.ts:146-150 | `15`, `1w`, `1.5h`, ` 1h` and `h` do not match and give 900000. |
| `AuthController.MaxAgeMonotone` | apps/api/src/auth/auth.controller.ts:152-162 | For a fixed unit, a larger number never gives a shorter cookie. |
| `AuthController.RegisterRoute` | apps/api/src/auth/auth.controller.ts:32-47 | Success with `data.user` exactly when the email is free. The new table and `data.user` are then exactly the service's result. Otherwise `success: false`, the service's message as `error`, and "Registration failed", with the table unchanged. |
| `AuthController.LoginRoute` | apps/api/src/auth/auth.controller.ts:56-84 | Success exactly when login succeeds. The HTTP-only token cookie is set exactly then: secure in production, with the parsed lifetime. A failure carries the service's message. |
| `AuthController.LoginResponseHidesWhichCheckFailed` | apps/api/src/auth/auth.controller.ts:76-83 | A wrong password and an unknown email give the same response and no cookie. |
| `AuthController.LogoutRoute` | apps/api/src/auth/auth.controller.ts:86-99 | Behind the JWT check. Once authenticated, logout always succeeds and clears the token cookie. |
| `AuthController.MeRoute` | apps/api/src/auth/auth.controller.ts:101-111 | Returns exactly the user the JWT check resolved, with no message. That user is ACTIVE and has the token's id. |
| `AuthController.UpdateProfileRoute` | apps/api/src/auth/auth.controller.ts:113-138 | A service failure becomes `success: false` with "Profile update failed", and the table is unchanged. A success returns the table and profile of the service's update of the caller. |
| `AuthController.AuthenticatedProfileUpdateSucceeds` | apps/api/src/auth/auth.controller.ts:119-137 | For a caller the JWT check accepted, the failure envelope is unreachable. |
| `ListingForm.InitialForm` | apps/web/src/components/ListingForm.tsx:30-54 | A new form is APARTMENT, SALE, empty texts, price 0 and currency UZS. An edit form takes the listing's type, deal, city, price and currency (UZS when empty). Each language of the title and description is the stored text, or empty when missing. District and address are the stored ones, or empty. A stored area, rooms, bedrooms, bathrooms, floor or total floors of 0 opens as an empty field; any other stored number opens as itself. |
| `ListingForm.Submit` | apps/web/src/components/ListingForm.tsx:56-111 | The form sends a request exactly when a title language, a description language, a city and a positive price are all given. Otherwise the first failing check's message is returned, in the order title, description, city, price. An edit sends an update of that listing; a new listing sends a create. |
| `ListingForm.BlankFormRefused` | apps/web/src/components/ListingForm.tsx:30-65 | A blank form cannot be submitted; it stops at the title check. |
| `ListingForm.CreateBodyAccepted` | apps/web/src/components/ListingForm.tsx:76-98 | Every create body the form sends with non-negative numbers passes the backend's validation. It arrives with the texts, city, price and type entered. |
| `ListingForm.FormStricterOnPrice` | apps/web/src/components/ListingForm.tsx:72-74 | A zero price is refused by the form and would be accepted by the backend. |
| `ListingForm.ClearedDistrictKept` | apps/web/src/components/ListingForm.tsx:82 | Emptying the district while editing leaves it out of the update, so the stored district stays. |
| `ListingForm.UnchangedEditKeepsListing` | apps/web/src/components/ListingForm.tsx:76-96 | Saving an edit form without changes leaves the listing's read-back unchanged. This needs texts that carry all three languages and a non-empty currency. |
| `ListingForm.NonEmptyOrAbsent` | apps/web/src/components/ListingForm.tsx:82-83 | An empty district or address is not sent; any other is sent as is. |
| `ListingForm.NonZeroReal` | apps/web/src/components/ListingForm.tsx:86 | A zero or absent area is not sent. |
| `ListingForm.NonZeroInt` | apps/web/src/components/ListingForm.tsx:87-91 | A zero or absent count is not sent. |
| `ListingCard.DisplayText` | apps/web/src/components/ListingCard.tsx:21-22 | The shown text is the card language's if non-empty, else Russian, else English. |
| `ListingCard.DisplayTextEmptyIff` | apps/web/src/components/ListingCard.tsx:21-22 | The shown text is empty exactly when the card language, Russian and English are all empty or absent. Otherwise it is one of those three. |
| `ListingCard.UzbekOnlyTitleBlankElsewhere` | apps/web/src/components/ListingCard.tsx:21 | A listing the form accepts with an Uzbek-only title has an empty title on English and Russian cards. |
| `ListingCard.CardImage` | apps/web/src/components/ListingCard.tsx:24-26 | The first image's thumbnail if non-empty, else its url; the placeholder when there are no images. |
| `ListingCard.UploadedImageShownFull` | apps/web/src/components/ListingCard.tsx:24-26 | An uploaded image has no thumbnail, so a card led by it shows its url. |
| `ListingCard.PriceSuffix` | apps/web/src/components/ListingCard.tsx:35-40 | The suffix is empty exactly for a sale. For a monthly rent it is a space and the per-month word; for a daily rent, a space and the per-day word. |
| `ListingCard.PriceLine` | apps/web/src/components/ListingCard.tsx:28-43 | The line is the formatted price, a space and the currency. A sale line has nothing after them; a rent line ends in " " + per-month word, a daily rent in " " + per-day word. |
| `ListingCard.RentPeriodsDistinguished` | apps/web/src/components/ListingCard.tsx:35-42 | With different period words, monthly and daily rents at the same price read differently. |
| `ListingCard.LocationLine` | apps/web/src/components/ListingCard.tsx:70-73 | The line is the city alone without a non-empty district, and the city, ", " and the district with one. |
| `ListingCard.CardHref` | apps/web/src/components/ListingCard.tsx:46 | The link is the locale's listings path followed by the listing id. |
| `ListingCard.BadgesAsWritten` | apps/web/src/components/ListingCard.tsx:80-103 | The badge row as written: at most three items. Any zero area, rooms or floor puts a stray "0" in the row, and no other stray text appears. Each non-zero value shows its badge. |
| `ListingCard.GroundFloorShowsStrayZero` | apps/web/src/components/ListingCard.tsx:96-103 | A listing on floor 0 gets a bare "0" and no floor badge. |
| `ListingCard.Badges` | apps/web/src/components/ListingCard.tsx:80-103 | The corrected row has no bare text. Each badge appears exactly when its value is present, showing that value. |
| `ListingCard.BadgesAgreeWithoutZeros` | apps/web/src/components/ListingCard.tsx:80-103 | The two rows agree exactly when none of area, rooms and floor is 0. |
| `Locales.SwitcherOffersEveryLocale` | apps/web/src/components/Header.tsx:20-24 | The switcher offers en, ru and uz. |
| `Header.LocalizedPath` | apps/web/src/components/Header.tsx:26-29 | The result always starts with "/" and the chosen locale. A path without "/" + current locale gets the new prefix in front of the whole path. Otherwise the first occurrence of "/" + current locale is cut out and "/" + new locale put in front of what remains. |
| `Header.SwitchKeepsRest` | apps/web/src/components/Header.tsx:26-29 | Under the current locale's prefix, switching swaps the prefix and keeps the rest of the path. |
| `Header.SwitchRoundTrip` | apps/web/src/components/Header.tsx:26-29 | Switching to another locale and back returns to the same path. |
| `Header.SwitchToSameLocale` | apps/web/src/components/Header.tsx:27-28 | Choosing the current locale leaves the path unchanged. |
| `Header.SwitchCutsFirstOccurrence` | apps/web/src/components/Header.tsx:27 | A first segment that merely starts with the current locale is cut too: "/" + segment + rest becomes "/" + new locale + the segment's remainder + rest. The removed occurrence need not be a whole path segment. |
| `Header.SwitchBetweenLocales` | apps/web/src/components/Header.tsx:20-29 | Between any two of the site's locales, switching keeps the page. |
| `ListingsClient.EntryPairs` | apps/web/src/lib/api/listings.ts:23-30 | An undefined or null value adds no parameter. A scalar adds the one pair (key, its text). An array adds one pair per element, in order, all under its key. |
| `ListingsClient.PairText` | apps/web/src/lib/api/listings.ts:34 | One parameter renders as the encoded key, "=", and the encoded value. |
| `ListingsClient.QueryPairsFromEntries` | apps/web/src/lib/api/listings.ts:22-32 | Every parameter's key comes from an entry. There are no parameters exactly when no entry adds one. |
| `ListingsClient.QueryPairsAppend` | apps/web/src/lib/api/listings.ts:23 | Parameters follow entry order: the parameters of joined entry lists are the joined parameters. |
| `ListingsClient.ArrayRepeatsKey` | apps/web/src/lib/api/listings.ts:25-26 | An array entry yields its elements in order, each with the entry's key. |
| `ListingsClient.AbsentEntriesIgnored` | apps/web/src/lib/api/listings.ts:24 | Adding an undefined or null entry leaves the URL unchanged. |
| `ListingsClient.QueryString` | apps/web/src/lib/api/listings.ts:34 | The query string is empty exactly when there are no parameters. It is the rendered pairs joined by "&", so a single pair gives just that pair's text. |
| `ListingsClient.QueryStringAppend` | apps/web/src/lib/api/listings.ts:20-34 | Appending parameters appends their rendering after a "&". |
| `ListingsClient.ListingsEndpoint` | apps/web/src/lib/api/listings.ts:34-35 | The URL is `/listings` exactly when there are no parameters, and `/listings?` followed by the query string otherwise. |

## Left out

- The database is a pair of maps. Relation projections are left out: the owner summary and the images included with a listing are not part of `ListingView`. The `createdAt`/`updatedAt` columns are left out too. Ordering by `sortBy`/`sortOrder` is the `order` parameter of `FindAll`: validation of the two fields is modelled, but the sort itself is not.
- The schema is not part of this model. The deletion of a listing's images with it, and the defaults of a new user (role USER, status ACTIVE, email not verified), are taken as the schema's behaviour.
- The view-count increment in `findOne` runs in the background and its failure is swallowed, so it is left out. The read result does not depend on it.
- `Promise.all` in `findAll` and the gap between a guard's read and the service's read are concurrency, and are left out. Every request is modelled as running alone.
- JSON serialization of the text and features columns is replaced by `StoredJson`. Features are a list of string pairs rather than arbitrary JSON.
- bcrypt and JWT are parameters: hashing, password comparison, and token signing and verification. The JWT strategy is not part of this model. `ListingsController.Authenticate` takes the token's verified subject (None for a missing or bad token) and resolves it through `validateUser`.
- The validation rules of the register, login and listing-update bodies are in files outside this model. Those bodies, and the `@IsString` checks of the profile-update body, are taken as already passed, so a value of the wrong JSON type is not modelled; an explicit null in the profile body is (`Wrappers.FieldPatch`). A validation failure on them (a 400 before the handler runs) is not modelled.
- Prices, areas and coordinates are `real`s, not floating point. `parseFloat`/`parseInt` on form inputs and `Intl.NumberFormat` are left out; the formatted price and translated words are parameters of `ListingCard.PriceLine`.
- `AuthController.MaxAgeFromExpiry`: the value is an unbounded natural. JavaScript's `parseInt` and the multiplication lose precision above 2^53, and the model does not reproduce that.
- `ListingsService.Merge`: an explicit `null` in the update body is not modelled; a field is either supplied or left out. The service tests `!== undefined`, so a null would be written: nullable columns would be cleared, and a required column would make the database client throw. Both depend on the update body's validation and the schema, which are outside this model.
- `ListingsController.UploadImageRoute`: the image's `order` is an integer. A body without `order` is not modelled, because it relies on a schema default outside this model.
- `ListingCard.DisplayText` takes a localized text. A listing whose title column is empty reads back with a null title, on which the card would fail; that case is not modelled.
- React state, rendering, navigation (`router.push`, `onSuccess`), the loading flag, the image `onError` fallback and the header's user menu are left out. `ListingForm.Submit` returns the message or the request instead.
- The form encoding of query keys and values is the parameter `encode` of `ListingsClient`. Numbers and booleans in the query object arrive already converted to strings.
- Messages of errors that are not `Error` instances ("Unknown error" in the auth routes) are left out: every service error here carries a message.
- HTTP status codes of the envelope routes are not modelled (register and login answer 201/200 even on failure). The delete routes answer 204 and drop the service's message; they return only the new store.

## Findings

| source | as written | input that shows it | evidently intended | confidence | as-written member | corrected member |
|---|---|---|---|---|---|---|
| apps/web/src/components/ListingCard.tsx:80-103 | Each badge is guarded by `value && badge`. React renders a guard that evaluates to the number 0 as the text "0". | A listing with floor 0 (ground floor) and 5 floors in total. The badge row shows a bare "0" and no floor badge. Area 0 or rooms 0 likewise. | Show each badge when its value is present, with no stray text. | medium; not executed | `ListingCard.BadgesAsWritten` (`ListingCard.GroundFloorShowsStrayZero`) | `ListingCard.Badges` (`ListingCard.BadgesAgreeWithoutZeros`) |

=== FILE: auth_controller.dfy ===
/**
 * The authentication routes. Every route sits behind the JWT guard except
 * register and login, which are public. Register, login and profile update
 * turn a failure of the service into a response with `success == false`
 * instead of an error status. The access token travels in an HTTP-only
 * cookie whose lifetime comes from the configured token expiry.
 */
module AuthController {
  import opened Wrappers
  import opened Errors
  import opened ListingTypes
  import opened AuthTypes
  import opened ListingsController
  import AS = AuthService
  import LS = ListingsService

  /** The body of every auth response; `user` is the `data.user` field. */
  datatype Envelope = Envelope(success: bool, user: Option<PublicUser>, error: Option<string>, message: Option<string>)

  datatype Cookie = Cookie(name: string, value: string, httpOnly: bool, secure: bool, maxAge: nat)

  const TokenCookie := "access_token"

  // ----------------------------------------------------------------------------
  // Cookie lifetime
  // ----------------------------------------------------------------------------

  const DefaultExpiry := "15m"
  /** Fifteen minutes in milliseconds. */
  const FallbackMaxAge := 900000

  predicate IsDigit(c: char) { '0' <= c <= '9' }

  predicate IsUnit(c: char) { c == 's' || c == 'm' || c == 'h' || c == 'd' }

  /** Milliseconds per unit: second, minute, hour, day. */
  function UnitMillis(u: char): nat
    requires IsUnit(u)
  {
    match u
    case 's' => 1000
    case 'm' => 60 * 1000
    case 'h' => 60 * 60 * 1000
    case 'd' => 24 * 60 * 60 * 1000
  }

  predicate AllDigits(s: string) {
    forall i :: 0 <= i < |s| ==> IsDigit(s[i])
  }

  /** The whole string is one or more ASCII digits followed by one unit letter. */
  predicate ExpiryMatches(e: string) {
    |e| >= 2 && AllDigits(e[..|e| - 1]) && IsUnit(e[|e| - 1])
  }

  /** The decimal value of a digit string, read from the left. */
  function DigitsValue(ds: string): nat
    requires AllDigits(ds)
  {
    if ds == [] then 0
    else DigitsValue(ds[..|ds| - 1]) * 10 + ((ds[|ds| - 1] as int) - ('0' as int))
  }

  /**
   * The cookie lifetime in milliseconds. An unset or empty setting means
   * "15m"; a setting that is not digits-then-unit falls back to fifteen minutes.
   */
  function MaxAgeFromExpiry(env: Option<string>): (ms: nat)
    ensures !Truthy(env) ==> ms == FallbackMaxAge
    ensures Truthy(env) && !ExpiryMatches(env.value) ==> ms == FallbackMaxAge
    ensures Truthy(env) && ExpiryMatches(env.value) ==> ms % 1000 == 0
  {
    var e := if Truthy(env) then env.value else DefaultExpiry;
    if !ExpiryMatches(e) then FallbackMaxAge
    else
      var v := DigitsValue(e[..|e| - 1]);
      var u := UnitMillis(e[|e| - 1]);
      assert u % 1000 == 0;
      MulOfThousand(v, u);
      DefaultExpiryParses();
      v * u
  }

  /** The default setting reads as fifteen minutes. */
  lemma DefaultExpiryParses()
    ensures ExpiryMatches(DefaultExpiry)
    ensures DigitsValue(DefaultExpiry[..|DefaultExpiry| - 1]) * UnitMillis(DefaultExpiry[|DefaultExpiry| - 1]) == FallbackMaxAge
  {
    assert DefaultExpiry[..|DefaultExpiry| - 1] == "15";
    assert "15"[..1] == "1";
    assert "1"[..0] == "";
  }

  lemma MulOfThousand(v: nat, u: nat)
    requires u % 1000 == 0
    ensures (v * u) % 1000 == 0
  {
    var k := u / 1000;
    assert u == 1000 * k;
    assert v * u == 1000 * (v * k);
  }

  /** The decimal rendering of a number, without leading zeros. */
  function DigitsOf(n: nat): (ds: string)
    ensures |ds| > 0 && AllDigits(ds)
  {
    if n < 10 then [('0' as int + n) as char]
    else DigitsOf(n / 10) + [('0' as int + n % 10) as char]
  }

  /** Reading a rendered number gives it back. */
  lemma {:induction false} DigitsValueOfDigitsOf(n: nat)
    ensures DigitsValue(DigitsOf(n)) == n
  {
    var ds := DigitsOf(n);
    if n >= 10 {
      DigitsValueOfDigitsOf(n / 10);
      assert ds[..|ds| - 1] == DigitsOf(n / 10);
    }
  }

  /** Any run of digits followed by a unit gives the digits' value in that unit, leading zeros included. */
  lemma MaxAgeOfDigits(ds: string, unit: char)
    requires |ds| > 0 && AllDigits(ds) && IsUnit(unit)
    ensures MaxAgeFromExpiry(Some(ds + [unit])) == DigitsValue(ds) * UnitMillis(unit)
  {
    var e := ds + [unit];
    assert e[..|e| - 1] == ds;
    assert e[|e| - 1] == unit;
  }

  /** A zero in front of a run of digits does not change its value. */
  lemma {:induction false} LeadingZeroIgnored(ds: string)
    requires AllDigits(ds)
    ensures AllDigits("0" + ds) && DigitsValue("0" + ds) == DigitsValue(ds)
    decreases |ds|
  {
    var z := "0" + ds;
    assert AllDigits(z) by {
      assert forall i :: 1 <= i < |z| ==> z[i] == ds[i - 1];
    }
    if ds != [] {
      var init := ds[..|ds| - 1];
      LeadingZeroIgnored(init);
      assert z[..|z| - 1] == "0" + init;
      assert z[|z| - 1] == ds[|ds| - 1];
    }
  }

  /** Settings with leading zeros read as the number without them: parseInt ignores the zeros. */
  lemma MaxAgeLeadingZeros()
    ensures MaxAgeFromExpiry(Some("015m")) == MaxAgeFromExpiry(Some("15m")) == FallbackMaxAge
    ensures MaxAgeFromExpiry(Some("007d")) == 604800000
  {
    MaxAgeOfDigits("015", 'm');
    LeadingZeroIgnored("15");
    MaxAgeOfSetting(15, 'm');
    assert DigitsOf(15) == "15";
    assert "015" + ['m'] == "015m";
    assert "15" + ['m'] == "15m";
    MaxAgeOfDigits("007", 'd');
    LeadingZeroIgnored("07");
    LeadingZeroIgnored("7");
    assert "0" + "7" == "07";
    assert "0" + "07" == "007";
    assert "007" + ['d'] == "007d";
    assert DigitsValue("7") == 7 by { assert "7"[..0] == ""; }
  }

  /** A setting written as a number and a unit gives that many units, in milliseconds. */
  lemma MaxAgeOfSetting(n: nat, unit: char)
    requires IsUnit(unit)
    ensures MaxAgeFromExpiry(Some(DigitsOf(n) + [unit])) == n * UnitMillis(unit)
  {
    MaxAgeOfDigits(DigitsOf(n), unit);
    DigitsValueOfDigitsOf(n);
  }

  /** The default setting and the fallback agree, and common settings give what they say. */
  lemma MaxAgeExamples()
    ensures MaxAgeFromExpiry(None) == MaxAgeFromExpiry(Some("15m")) == FallbackMaxAge
    ensures MaxAgeFromExpiry(Some("")) == FallbackMaxAge
    ensures MaxAgeFromExpiry(Some("1h")) == 3600000
    ensures MaxAgeFromExpiry(Some("7d")) == 604800000
  {
    MaxAgeOfSetting(15, 'm');
    assert DigitsOf(15) + ['m'] == "15m";
    MaxAgeOfSetting(1, 'h');
    assert DigitsOf(1) + ['h'] == "1h";
    MaxAgeOfSetting(7, 'd');
    assert DigitsOf(7) + ['d'] == "7d";
  }

  /** Settings the pattern does not accept all give the fallback. */
  lemma MaxAgeRejectedSettings()
    ensures MaxAgeFromExpiry(Some("15")) == FallbackMaxAge
    ensures MaxAgeFromExpiry(Some("1w")) == FallbackMaxAge
    ensures MaxAgeFromExpiry(Some("1.5h")) == FallbackMaxAge
    ensures MaxAgeFromExpiry(Some(" 1h")) == FallbackMaxAge
    ensures MaxAgeFromExpiry(Some("h")) == FallbackMaxAge
  {
    assert !IsDigit("1.5h"[1]);
    assert !IsDigit(" 1h"[0]);
  }

  /** A longer lifetime setting in the same unit never gives a shorter cookie. */
  lemma MaxAgeMonotone(a: nat, b: nat, unit: char)
    requires IsUnit(unit) && a <= b
    ensures MaxAgeFromExpiry(Some(DigitsOf(a) + [unit])) <= MaxAgeFromExpiry(Some(DigitsOf(b) + [unit]))
  {
    MaxAgeOfSetting(a, unit);
    MaxAgeOfSetting(b, unit);
    LS.MulMonotone(a, b, UnitMillis(unit));
  }

  // ----------------------------------------------------------------------------
  // Routes
  // ----------------------------------------------------------------------------

  function Succeeded(user: PublicUser, message: string): Envelope {
    Envelope(true, Some(user), None, Some(message))
  }

  function Failed(e: ApiError, message: string): Envelope {
    Envelope(false, None, Some(e.message), Some(message))
  }

  /** POST /auth/register (public). A taken email is reported in the body, not as an error status. */
  function RegisterRoute(users: AS.Users, dto: AS.RegisterDto, newId: string, passwordHash: string)
    : (r: (AS.Users, Envelope))
    requires forall j :: 0 <= j < |users| ==> users[j].id != newId
    ensures r.1.success <==> forall j :: 0 <= j < |users| ==> users[j].email != dto.email
    ensures r.1.success ==> && r.1.message == Some("User registered successfully")
                            && r.1.user.Some? && r.1.user.value.email == dto.email && r.1.user.value.id == newId
                            && |r.0| == |users| + 1
    ensures r.1.success ==> && AS.Register(users, dto, newId, passwordHash).Ok?
                            && (r.0, r.1.user.value) == AS.Register(users, dto, newId, passwordHash).value
    ensures !r.1.success ==> && r == (users, Envelope(false, None, Some("User with this email already exists"),
                                                      Some("Registration failed")))
  {
    match AS.Register(users, dto, newId, passwordHash)
    case Ok((users', u)) => (users', Succeeded(u, "User registered successfully"))
    case Err(e) => (users, Failed(e, "Registration failed"))
  }

  /**
   * POST /auth/login (public). The token cookie is set only on success; it is
   * HTTP-only and marked secure exactly in production.
   */
  function LoginRoute(users: AS.Users, dto: AS.LoginDto, matches: (string, string) -> bool,
                      sign: JwtPayload -> string, production: bool, expiry: Option<string>)
    : (r: (Envelope, Option<Cookie>))
    ensures r.0.success <==> AS.Login(users, dto, matches, sign).Ok?
    ensures r.1.Some? <==> r.0.success
    ensures r.1.Some? ==> && r.1.value.name == TokenCookie
                          && r.1.value.value == AS.Login(users, dto, matches, sign).value.accessToken
                          && r.1.value.httpOnly && r.1.value.secure == production
                          && r.1.value.maxAge == MaxAgeFromExpiry(expiry)
    ensures r.0.success ==> r.0.message == Some("Login successful")
                            && r.0.user == Some(AS.Login(users, dto, matches, sign).value.user)
    ensures !r.0.success ==> && r.0.message == Some("Login failed") && r.0.user.None?
                             && r.0.error == Some(AS.Login(users, dto, matches, sign).error.message)
  {
    match AS.Login(users, dto, matches, sign)
    case Ok(res) =>
      (Succeeded(res.user, "Login successful"),
       Some(Cookie(TokenCookie, res.accessToken, true, production, MaxAgeFromExpiry(expiry))))
    case Err(e) => (Failed(e, "Login failed"), None)
  }

  /** A wrong password and an unknown email give the same response, with no cookie. */
  lemma LoginResponseHidesWhichCheckFailed(users: AS.Users, unknown: AS.LoginDto, wrong: AS.LoginDto,
                                           matches: (string, string) -> bool, sign: JwtPayload -> string,
                                           production: bool, expiry: Option<string>)
    requires AS.ByEmail(users, unknown.email).None?
    requires AS.ByEmail(users, wrong.email).Some?
    requires users[AS.ByEmail(users, wrong.email).value].status == AccountActive
    requires !matches(wrong.password, users[AS.ByEmail(users, wrong.email).value].passwordHash)
    ensures LoginRoute(users, unknown, matches, sign, production, expiry)
         == LoginRoute(users, wrong, matches, sign, production, expiry)
         == (Envelope(false, None, Some("Invalid credentials"), Some("Login failed")), None)
  {
    AS.LoginFailuresIndistinguishable(users, unknown, wrong, matches, sign);
  }

  /** The instruction to the browser about the token cookie. */
  datatype CookieChange = ClearCookie(name: string)

  /** POST /auth/logout: behind the JWT guard; clears the cookie and always succeeds once authenticated. */
  function LogoutRoute(users: AS.Users, subject: Option<string>): (r: Result<(Envelope, CookieChange), ApiError>)
    ensures r.Err? <==> Authenticate(users, subject).Err?
    ensures r.Err? ==> r.error == NotAuthorized
    ensures r.Ok? ==> r.value == (Envelope(true, None, None, Some("Logout successful")), ClearCookie(TokenCookie))
  {
    match Authenticate(users, subject)
    case Err(e) => Err(e)
    case Ok(_) => Ok((Envelope(true, None, None, Some("Logout successful")), ClearCookie(TokenCookie)))
  }

  /** GET /auth/me: the user the JWT guard resolved, as stored, without a message. */
  function MeRoute(users: AS.Users, subject: Option<string>): (r: Result<Envelope, ApiError>)
    ensures r.Err? <==> Authenticate(users, subject).Err?
    ensures r.Err? ==> r.error == NotAuthorized
    ensures r.Ok? ==> && r.value.success && r.value.message.None? && r.value.user.Some?
                      && r.value.user.value.id == subject.value
                      && r.value.user.value.status == AccountActive
    ensures r.Ok? ==> r.value == Envelope(true, Some(Authenticate(users, subject).value), None, None)
  {
    match Authenticate(users, subject)
    case Err(e) => Err(e)
    case Ok(u) => Ok(Envelope(true, Some(u), None, None))
  }

  /** PATCH /auth/profile: updates the authenticated user; a service failure is reported in the body. */
  function UpdateProfileRoute(users: AS.Users, subject: Option<string>, dto: AS.UpdateProfileDto)
    : (r: Result<(AS.Users, Envelope), ApiError>)
    ensures r.Err? <==> Authenticate(users, subject).Err?
    ensures r.Err? ==> r.error == NotAuthorized
    ensures r.Ok? && r.value.1.success ==> && r.value.1.message == Some("Profile updated successfully")
                                           && r.value.1.user.Some? && r.value.1.user.value.id == subject.value
    ensures r.Ok? && r.value.1.success ==> && AS.UpdateProfile(users, subject.value, dto).Ok?
                                           && (r.value.0, r.value.1.user.value) == AS.UpdateProfile(users, subject.value, dto).value
    ensures r.Ok? && !r.value.1.success ==> && r.value.0 == users
                                            && r.value.1 == Envelope(false, None, Some("User not found"),
                                                                     Some("Profile update failed"))
  {
    match Authenticate(users, subject)
    case Err(e) => Err(e)
    case Ok(u) =>
      match AS.UpdateProfile(users, u.id, dto)
      case Ok((users', u')) => Ok((users', Succeeded(u', "Profile updated successfully")))
      case Err(e) => Ok((users, Failed(e, "Profile update failed")))
  }

  /**
   * Once the guard has resolved the user, the update cannot fail: the failure
   * response is reachable only if the user disappears between the two reads,
   * which this model does not interleave.
   */
  lemma {:induction false} AuthenticatedProfileUpdateSucceeds(users: AS.Users, subject: Option<string>, dto: AS.UpdateProfileDto)
    requires Authenticate(users, subject).Ok?
    ensures UpdateProfileRoute(users, subject, dto).Ok?
    ensures UpdateProfileRoute(users, subject, dto).value.1.success
  {
    var u := Authenticate(users, subject).value;
    var j :| 0 <= j < |users| && u == AS.MapUserToType(users[j]);
    assert users[j].id == u.id;
  }
}

=== FILE: auth_service.dfy ===
/**
 * Registration, login and profile management over the users table. The table
 * is a sequence of records in insertion order, searched by email or by id.
 * Password hashing and token signing are opaque: the hash of a new password is
 * a parameter, password checking is the predicate `matches(password, hash)`,
 * and signing is the function `sign(payload)`.
 */
module AuthService {
  import opened Wrappers
  import opened Errors
  import opened ListingTypes
  import opened AuthTypes

  datatype UserRecord = UserRecord(
    id: string, email: string, passwordHash: string,
    firstName: Option<string>, lastName: Option<string>, phone: Option<string>,
    role: UserRole, status: UserStatus, emailVerified: bool)

  type Users = seq<UserRecord>

  /** The table's unique indexes: no two records share an id or an email. */
  predicate WellFormedUsers(users: Users) {
    forall i, j :: 0 <= i < j < |users| ==> users[i].id != users[j].id && users[i].email != users[j].email
  }

  /** The index of the first element satisfying `p`, if any. */
  function FindFirst<T>(s: seq<T>, p: T -> bool): (r: Option<nat>)
    ensures r.Some? ==> r.value < |s| && p(s[r.value]) && forall j :: 0 <= j < r.value ==> !p(s[j])
    ensures r.None? ==> forall j :: 0 <= j < |s| ==> !p(s[j])
  {
    if s == [] then None
    else if p(s[0]) then Some(0)
    else match FindFirst(s[1..], p)
      case None => None
      case Some(k) => Some(k + 1)
  }

  function ByEmail(users: Users, email: string): (r: Option<nat>)
    ensures r.Some? ==> r.value < |users| && users[r.value].email == email
    ensures r.None? <==> forall j :: 0 <= j < |users| ==> users[j].email != email
  {
    FindFirst(users, (u: UserRecord) => u.email == email)
  }

  function ById(users: Users, id: string): (r: Option<nat>)
    ensures r.Some? ==> r.value < |users| && users[r.value].id == id
    ensures r.None? <==> forall j :: 0 <= j < |users| ==> users[j].id != id
  {
    FindFirst(users, (u: UserRecord) => u.id == id)
  }

  /** The outward form of a record: every column but the password hash. */
  function MapUserToType(u: UserRecord): (p: PublicUser)
    ensures p.id == u.id && p.email == u.email && p.role == u.role && p.status == u.status
    ensures p.firstName == u.firstName && p.lastName == u.lastName && p.phone == u.phone
    ensures p.emailVerified == u.emailVerified
  {
    PublicUser(u.id, u.email, u.firstName, u.lastName, u.phone, u.role, u.status, u.emailVerified)
  }

  /** What a user's public form shows does not depend on the password hash. */
  lemma PublicUserIgnoresHash(u: UserRecord, otherHash: string)
    ensures MapUserToType(u.(passwordHash := otherHash)) == MapUserToType(u)
  {
  }

  // ----------------------------------------------------------------------------
  // register
  // ----------------------------------------------------------------------------

  datatype RegisterDto = RegisterDto(
    email: string, password: string,
    firstName: Option<string>, lastName: Option<string>, phone: Option<string>)

  const EmailTaken := ApiError(Conflict, "User with this email already exists")

  /** Role, status and email-verification flag of a newly created user (the table's defaults). */
  const NewUserRole := PlainUser
  const NewUserStatus := AccountActive

  /** `value || null`: an absent or empty string is stored as null. */
  function OrNull(o: Option<string>): (r: Option<string>)
    ensures r.Some? <==> Truthy(o)
    ensures r.Some? ==> r == o
  {
    if Truthy(o) then o else None
  }

  function Register(users: Users, dto: RegisterDto, newId: string, passwordHash: string): (r: Result<(Users, PublicUser), ApiError>)
    requires forall j :: 0 <= j < |users| ==> users[j].id != newId
    ensures r.Err? <==> exists j :: 0 <= j < |users| && users[j].email == dto.email
    ensures r.Err? ==> r.error == EmailTaken
    ensures r.Ok? ==> var (users', u) := r.value;
      && |users'| == |users| + 1 && users'[..|users|] == users
      && users'[|users|].passwordHash == passwordHash
      && u == MapUserToType(users'[|users|])
      && u.id == newId && u.email == dto.email
      && u.firstName == OrNull(dto.firstName) && u.lastName == OrNull(dto.lastName) && u.phone == OrNull(dto.phone)
      && u.role == PlainUser && u.status == AccountActive && !u.emailVerified
    ensures r.Ok? && WellFormedUsers(users) ==> WellFormedUsers(r.value.0)
  {
    if ByEmail(users, dto.email).Some? then Err(EmailTaken)
    else
      var record := UserRecord(newId, dto.email, passwordHash,
                               OrNull(dto.firstName), OrNull(dto.lastName), OrNull(dto.phone),
                               NewUserRole, NewUserStatus, false);
      var users' := users + [record];
      assert users'[..|users|] == users;
      Ok((users', MapUserToType(record)))
  }

  // ----------------------------------------------------------------------------
  // login
  // ----------------------------------------------------------------------------

  datatype LoginDto = LoginDto(email: string, password: string)
  datatype LoginResult = LoginResult(user: PublicUser, accessToken: string)

  const InvalidCredentials := ApiError(Unauthorized, "Invalid credentials")
  const AccountNotActive := ApiError(Unauthorized, "User account is not active")

  /**
   * Logs a user in. The account status is checked before the password, so an
   * inactive account is reported as such whatever password is given.
   */
  function Login(users: Users, dto: LoginDto, matches: (string, string) -> bool, sign: JwtPayload -> string): (r: Result<LoginResult, ApiError>)
    ensures ByEmail(users, dto.email).None? ==> r == Err(InvalidCredentials)
    ensures ByEmail(users, dto.email).Some? ==> var u := users[ByEmail(users, dto.email).value];
      && (u.status != AccountActive ==> r == Err(AccountNotActive))
      && (u.status == AccountActive && !matches(dto.password, u.passwordHash) ==> r == Err(InvalidCredentials))
      && (r.Ok? <==> u.status == AccountActive && matches(dto.password, u.passwordHash))
      && (r.Ok? ==> r.value.user == MapUserToType(u)
                    && r.value.accessToken == sign(JwtPayload(u.id, u.email, u.role)))
  {
    match ByEmail(users, dto.email)
    case None => Err(InvalidCredentials)
    case Some(i) =>
      var u := users[i];
      if u.status != AccountActive then Err(AccountNotActive)
      else if !matches(dto.password, u.passwordHash) then Err(InvalidCredentials)
      else Ok(LoginResult(MapUserToType(u), sign(JwtPayload(u.id, u.email, u.role))))
  }

  /**
   * An unknown email and a wrong password cannot be told apart from the
   * response, while an inactive account can.
   */
  lemma LoginFailuresIndistinguishable(users: Users, unknown: LoginDto, wrong: LoginDto,
                                       matches: (string, string) -> bool, sign: JwtPayload -> string)
    requires ByEmail(users, unknown.email).None?
    requires ByEmail(users, wrong.email).Some?
    requires users[ByEmail(users, wrong.email).value].status == AccountActive
    requires !matches(wrong.password, users[ByEmail(users, wrong.email).value].passwordHash)
    ensures Login(users, unknown, matches, sign) == Login(users, wrong, matches, sign)
    ensures Login(users, unknown, matches, sign) != Err(AccountNotActive)
  {
  }

  // ----------------------------------------------------------------------------
  // profile
  // ----------------------------------------------------------------------------

  const UserNotFound := ApiError(NotFound, "User not found")

  function GetProfile(users: Users, id: string): (r: Result<PublicUser, ApiError>)
    ensures r.Err? <==> forall j :: 0 <= j < |users| ==> users[j].id != id
    ensures r.Err? ==> r.error == UserNotFound
    ensures r.Ok? ==> exists j :: 0 <= j < |users| && users[j].id == id && r.value == MapUserToType(users[j])
  {
    match ById(users, id)
    case None => Err(UserNotFound)
    case Some(i) => Ok(MapUserToType(users[i]))
  }

  /** The column after the service's `dto.f !== undefined ? dto.f : user.f`. */
  function Patched<T>(p: FieldPatch<T>, current: Option<T>): (r: Option<T>)
    ensures p.Omitted? ==> r == current
    ensures p.ExplicitNull? ==> r.None?
    ensures p.Supplied? ==> r == Some(p.value)
  {
    match p
    case Omitted => current
    case ExplicitNull => None
    case Supplied(v) => Some(v)
  }

  datatype UpdateProfileDto = UpdateProfileDto(firstName: FieldPatch<string>, lastName: FieldPatch<string>, phone: FieldPatch<string>)

  /**
   * Updates the names and phone of a user. A field that is left out keeps its
   * value, an explicit null clears it, and a supplied string (the empty one
   * included) is stored as given.
   */
  function UpdateProfile(users: Users, id: string, dto: UpdateProfileDto): (r: Result<(Users, PublicUser), ApiError>)
    ensures r.Err? <==> forall j :: 0 <= j < |users| ==> users[j].id != id
    ensures r.Err? ==> r.error == UserNotFound
    ensures r.Ok? ==> var (users', u) := r.value;
      exists i :: 0 <= i < |users| && users[i].id == id
        && users' == users[i := users[i].(firstName := u.firstName, lastName := u.lastName, phone := u.phone)]
        && u == MapUserToType(users'[i])
        && (dto.firstName.Omitted? ==> u.firstName == users[i].firstName)
        && (dto.firstName.ExplicitNull? ==> u.firstName.None?)
        && (dto.firstName.Supplied? ==> u.firstName == Some(dto.firstName.value))
        && (dto.lastName.Omitted? ==> u.lastName == users[i].lastName)
        && (dto.lastName.ExplicitNull? ==> u.lastName.None?)
        && (dto.lastName.Supplied? ==> u.lastName == Some(dto.lastName.value))
        && (dto.phone.Omitted? ==> u.phone == users[i].phone)
        && (dto.phone.ExplicitNull? ==> u.phone.None?)
        && (dto.phone.Supplied? ==> u.phone == Some(dto.phone.value))
    ensures r.Ok? && WellFormedUsers(users) ==> WellFormedUsers(r.value.0)
  {
    match ById(users, id)
    case None => Err(UserNotFound)
    case Some(i) =>
      var u := users[i];
      var u' := u.(firstName := Patched(dto.firstName, u.firstName),
                   lastName := Patched(dto.lastName, u.lastName),
                   phone := Patched(dto.phone, u.phone));
      Ok((users[i := u'], MapUserToType(u')))
  }

  /**
   * The identity check behind every authenticated request: null when the user
   * no longer exists or is not ACTIVE.
   */
  function ValidateUser(users: Users, id: string): (r: Option<PublicUser>)
    ensures (forall j :: 0 <= j < |users| ==> users[j].id != id) ==> r.None?
    ensures r.Some? ==> exists j :: 0 <= j < |users| && users[j].id == id && users[j].status == AccountActive
                                    && r.value == MapUserToType(users[j])
    ensures WellFormedUsers(users) ==>
      (r.None? <==> forall j :: 0 <= j < |users| && users[j].id == id ==> users[j].status != AccountActive)
  {
    match ById(users, id)
    case None => None
    case Some(i) => if users[i].status != AccountActive then None else Some(MapUserToType(users[i]))
  }
}

=== FILE: auth_types.dfy ===
/** The user vocabulary shared by the backend and the web client. */
module AuthTypes {
  import opened Wrappers

  /** USER, AGENT and ADMIN. */
  datatype UserRole = PlainUser | Agent | Admin

  /** ACTIVE, SUSPENDED and PENDING_VERIFICATION. */
  datatype UserStatus = AccountActive | Suspended | PendingVerification

  function RoleName(r: UserRole): string {
    match r
    case PlainUser => "USER"
    case Agent => "AGENT"
    case Admin => "ADMIN"
  }

  /**
   * A user as any response shows it. The type has no password hash field, so
   * no value of it can carry one.
   */
  datatype PublicUser = PublicUser(
    id: string, email: string,
    firstName: Option<string>, lastName: Option<string>, phone: Option<string>,
    role: UserRole, status: UserStatus, emailVerified: bool)

  /** The claims a session token carries besides its issue and expiry times. */
  datatype JwtPayload = JwtPayload(sub: string, email: string, role: UserRole)
}

=== FILE: guards.dfy ===
/**
 * The two authorization guards: the listing ownership guard and the roles
 * guard. Each is a pure decision over the request's user (None when the
 * request has none) and, for ownership, the listings table, which it only reads.
 */
module Guards {
  import opened Wrappers
  import opened Errors
  import opened AuthTypes
  import opened Text
  import LS = ListingsService

  const NotAuthenticated := ApiError(Forbidden, "User not authenticated")
  const NotListingOwner := ApiError(Forbidden, "You do not have permission to modify this listing")

  /**
   * Lets an ADMIN through without looking at the table, even for a listing that
   * does not exist; anyone else must be the listing's stored owner.
   */
  function OwnershipGuard(user: Option<PublicUser>, listingId: string, listings: map<string, LS.ListingRow>): (r: Outcome<ApiError>)
    ensures user.None? ==> r == Fail(NotAuthenticated)
    ensures user.Some? && user.value.role == Admin ==> r == Pass
    ensures user.Some? && user.value.role != Admin && listingId !in listings ==> r == Fail(LS.ListingNotFound)
    ensures user.Some? && user.value.role != Admin && listingId in listings ==>
      (r == Pass <==> listings[listingId].ownerId == user.value.id)
    ensures user.Some? && user.value.role != Admin && listingId in listings && listings[listingId].ownerId != user.value.id
      ==> r == Fail(NotListingOwner)
  {
    if user.None? then Fail(NotAuthenticated)
    else if user.value.role == Admin then Pass
    else if listingId !in listings then Fail(LS.ListingNotFound)
    else if listings[listingId].ownerId != user.value.id then Fail(NotListingOwner)
    else Pass
  }

  /** The guard passes exactly for an ADMIN or for the owner of an existing listing. */
  lemma OwnershipGuardPassesIff(user: Option<PublicUser>, listingId: string, listings: map<string, LS.ListingRow>)
    ensures OwnershipGuard(user, listingId, listings) == Pass <==>
      user.Some? && (user.value.role == Admin || (listingId in listings && listings[listingId].ownerId == user.value.id))
  {
  }

  const RoleDeniedPrefix := "User does not have required role. Required: "

  function RoleDenied(required: seq<UserRole>): ApiError {
    ApiError(Forbidden, RoleDeniedPrefix + Join(RoleNames(required), ", "))
  }

  function RoleNames(roles: seq<UserRole>): (names: seq<string>)
    ensures |names| == |roles| && forall i :: 0 <= i < |roles| ==> names[i] == RoleName(roles[i])
  {
    if roles == [] then [] else [RoleName(roles[0])] + RoleNames(roles[1..])
  }

  /**
   * `required` is None when the route declares no roles. A declared but empty
   * list is not the same: it admits nobody.
   */
  function RolesGuard(required: Option<seq<UserRole>>, user: Option<PublicUser>): (r: Outcome<ApiError>)
    ensures required.None? ==> r == Pass
    ensures required.Some? && user.None? ==> r == Fail(NotAuthenticated)
    ensures required.Some? && user.Some? ==> (r == Pass <==> user.value.role in required.value)
    ensures required.Some? && user.Some? && user.value.role !in required.value ==> r == Fail(RoleDenied(required.value))
  {
    if required.None? then Pass
    else if user.None? then Fail(NotAuthenticated)
    else if user.value.role in required.value then Pass
    else Fail(RoleDenied(required.value))
  }

  /** The denial message names every required role. */
  lemma RoleDeniedNamesEachRole(required: seq<UserRole>, i: nat)
    requires i < |required|
    ensures exists k: nat :: OccursAt(RoleDenied(required).message, RoleName(required[i]), k)
  {
    var names := RoleNames(required);
    var joined := Join(names, ", ");
    var name := RoleName(required[i]);
    JoinContains(names, ", ", i);
    assert names[i] == name;
    var k: nat :| OccursAt(joined, name, k);
    var msg := RoleDeniedPrefix + joined;
    assert msg == RoleDenied(required).message;
    assert msg[|RoleDeniedPrefix| + k..|RoleDeniedPrefix| + k + |name|] == joined[k..k + |name|];
    var at: nat := |RoleDeniedPrefix| + k;
    assert OccursAt(msg, name, at);
  }

  /** The message of the only route with a role requirement. */
  lemma AdminOnlyDenialMessage()
    ensures RoleDenied([Admin]).message == "User does not have required role. Required: ADMIN"
  {
  }
}

=== FILE: header.dfy ===
/** The three interface languages of the web client. */
module Locales {
  datatype Locale = En | Ru | Uz

  /** The path prefix of each locale; every page path starts with one. */
  function LocaleCode(l: Locale): (code: string)
    ensures |code| == 2
  {
    match l
    case En => "en"
    case Ru => "ru"
    case Uz => "uz"
  }

  /** The language switcher offers every locale, in this order. */
  const SwitcherLocales: seq<Locale> := [En, Ru, Uz]

  lemma SwitcherOffersEveryLocale(l: Locale)
    ensures l in SwitcherLocales
    ensures LocaleCode(l) in ["en", "ru", "uz"]
  {
  }
}

/**
 * The language switcher of the site header: the path a locale choice leads
 * to. Locale codes are plain strings here, as the header reads the current
 * one from the route without checking it.
 */
module Header {
  import opened Wrappers
  import opened Text
  import opened Locales

  /**
   * Removes the first occurrence of "/" + `current` from the path, wherever it
   * is, and puts "/" + `target` in front of what remains.
   */
  function LocalizedPath(pathname: string, current: string, target: string): (r: string)
    ensures StartsWith(r, "/" + target)
    ensures IndexOf(pathname, "/" + current).None? ==> r == "/" + target + pathname
    ensures IndexOf(pathname, "/" + current).Some? ==> var k := IndexOf(pathname, "/" + current).value;
      r == "/" + target + pathname[..k] + pathname[k + |current| + 1..]
  {
    var rest := ReplaceFirst(pathname, "/" + current, "");
    assert ("/" + target + rest)[..|"/" + target|] == "/" + target;
    "/" + target + rest
  }

  /** On a page under the current locale's prefix, switching swaps the prefix and keeps the rest. */
  lemma SwitchKeepsRest(current: string, target: string, rest: string)
    ensures LocalizedPath("/" + current + rest, current, target) == "/" + target + rest
  {
    var p := "/" + current + rest;
    assert p[..|"/" + current|] == "/" + current;
    assert OccursAt(p, "/" + current, 0);
    assert IndexOf(p, "/" + current) == Some(0);
    assert p[|"/" + current|..] == rest;
  }

  /** Switching to another locale and back returns to the same page. */
  lemma SwitchRoundTrip(current: string, target: string, rest: string)
    ensures LocalizedPath(LocalizedPath("/" + current + rest, current, target), target, current) == "/" + current + rest
  {
    SwitchKeepsRest(current, target, rest);
    SwitchKeepsRest(target, current, rest);
  }

  /** Choosing the locale already in use leaves the page where it is. */
  lemma SwitchToSameLocale(current: string, rest: string)
    ensures LocalizedPath("/" + current + rest, current, current) == "/" + current + rest
  {
    SwitchKeepsRest(current, current, rest);
  }

  /**
   * The removed occurrence need not be a whole path segment: when the current
   * code is a proper start of the first segment (the "e" of "/en"), only that
   * start is cut and the rest of the segment stays.
   */
  lemma SwitchCutsFirstOccurrence(current: string, segment: string, target: string, rest: string)
    requires StartsWith(segment, current)
    ensures LocalizedPath("/" + segment + rest, current, target) == "/" + target + segment[|current|..] + rest
    ensures LocalizedPath("/en/listings", "e", "ru") == "/run/listings"
  {
    var p := "/" + segment + rest;
    assert p[..|"/" + current|] == "/" + current;
    assert OccursAt(p, "/" + current, 0);
    assert IndexOf(p, "/" + current) == Some(0);
    assert p[|"/" + current|..] == segment[|current|..] + rest;
    var e := "/en/listings";
    assert OccursAt(e, "/e", 0);
    assert IndexOf(e, "/e") == Some(0);
    assert e[2..] == "n/listings";
    assert ReplaceFirst(e, "/e", "") == "n/listings";
    assert "/ru" + "n/listings" == "/run/listings";
  }

  /** For the locales the site uses, switching between any two keeps the page. */
  lemma SwitchBetweenLocales(from: Locale, to: Locale, rest: string)
    ensures LocalizedPath("/" + LocaleCode(from) + rest, LocaleCode(from), LocaleCode(to)) == "/" + LocaleCode(to) + rest
  {
    SwitchKeepsRest(LocaleCode(from), LocaleCode(to), rest);
  }
}

=== FILE: listing_card.dfy ===
/**
 * The listing preview card of the web client: which title, description,
 * picture, price line, location line and badges it shows. Number formatting
 * and translated words come in as parameters (`formattedPrice`, `perMonth`,
 * `perDay`), as they depend on the locale's formatting rules and message files.
 */
module ListingCard {
  import opened Wrappers
  import opened ListingTypes
  import opened Text
  import opened Locales
  import LS = ListingsService
  import LF = ListingForm

  // ----------------------------------------------------------------------------
  // Texts
  // ----------------------------------------------------------------------------

  function InLocale(t: LocalizedText, l: Locale): Option<string> {
    match l
    case En => t.en
    case Ru => t.ru
    case Uz => t.uz
  }

  /**
   * The text shown for a localized field: the card's own language, else
   * Russian, else English, else nothing. Uzbek is never a fallback.
   */
  function DisplayText(t: LocalizedText, l: Locale): (r: string)
    ensures Truthy(InLocale(t, l)) ==> r == InLocale(t, l).value
    ensures !Truthy(InLocale(t, l)) && Truthy(t.ru) ==> r == t.ru.value
    ensures !Truthy(InLocale(t, l)) && !Truthy(t.ru) && Truthy(t.en) ==> r == t.en.value
  {
    if Truthy(InLocale(t, l)) then InLocale(t, l).value
    else if Truthy(t.ru) then t.ru.value
    else if Truthy(t.en) then t.en.value
    else ""
  }

  /** The card shows a non-empty text exactly when the card's language, Russian or English has one. */
  lemma DisplayTextEmptyIff(t: LocalizedText, l: Locale)
    ensures DisplayText(t, l) == "" <==> !Truthy(InLocale(t, l)) && !Truthy(t.ru) && !Truthy(t.en)
    ensures DisplayText(t, l) != "" ==>
      DisplayText(t, l) in [InLocale(t, l).GetOr(""), t.ru.GetOr(""), t.en.GetOr("")]
  {
  }

  /**
   * The form accepts a listing titled in Uzbek only, and its card then has no
   * title in English or Russian.
   */
  lemma UzbekOnlyTitleBlankElsewhere(uz: string)
    requires uz != ""
    ensures LF.HasAnyText(LF.LangText("", "", uz))
    ensures DisplayText(LF.AllLanguages(LF.LangText("", "", uz)), Uz) == uz
    ensures DisplayText(LF.AllLanguages(LF.LangText("", "", uz)), En) == ""
    ensures DisplayText(LF.AllLanguages(LF.LangText("", "", uz)), Ru) == ""
  {
  }

  // ----------------------------------------------------------------------------
  // Picture
  // ----------------------------------------------------------------------------

  const Placeholder := "/placeholder-property.jpg"

  /** The first image's thumbnail, else its full picture; the placeholder when there is no image. */
  function CardImage(images: seq<LS.ListingImage>): (url: string)
    ensures images == [] ==> url == Placeholder
    ensures images != [] && Truthy(images[0].thumbnailUrl) ==> url == images[0].thumbnailUrl.value
    ensures images != [] && !Truthy(images[0].thumbnailUrl) ==> url == images[0].url
  {
    if images == [] then Placeholder
    else if Truthy(images[0].thumbnailUrl) then images[0].thumbnailUrl.value
    else images[0].url
  }

  /** Uploaded images have no thumbnail, so a card led by one shows the full picture. */
  lemma UploadedImageShownFull(s: LS.Store, listingId: string, url: string, order: int, newImageId: string,
                               rest: seq<LS.ListingImage>)
    requires LS.Valid(s) && newImageId !in s.images
    requires LS.UploadImage(s, listingId, url, order, newImageId).Ok?
    ensures CardImage([LS.UploadImage(s, listingId, url, order, newImageId).value.1] + rest) == url
  {
  }

  // ----------------------------------------------------------------------------
  // Price and location lines
  // ----------------------------------------------------------------------------

  function PriceSuffix(dealType: DealType, perMonth: string, perDay: string): (suffix: string)
    ensures suffix == "" <==> dealType == Sale
    ensures dealType == Rent ==> suffix == " " + perMonth
    ensures dealType == DailyRent ==> suffix == " " + perDay
  {
    match dealType
    case Sale => ""
    case Rent => " " + perMonth
    case DailyRent => " " + perDay
  }

  /** The price line: the formatted amount, a space, the currency and the rent period if any. */
  function PriceLine(formattedPrice: string, currency: string, dealType: DealType, perMonth: string, perDay: string): (r: string)
    ensures StartsWith(r, formattedPrice + " " + currency)
    ensures dealType == Sale ==> r == formattedPrice + " " + currency
    ensures dealType == Rent ==> r == formattedPrice + " " + currency + " " + perMonth
    ensures dealType == DailyRent ==> r == formattedPrice + " " + currency + " " + perDay
  {
    var head := formattedPrice + " " + currency;
    var r := head + PriceSuffix(dealType, perMonth, perDay);
    assert r[..|head|] == head;
    r
  }

  /** With distinct period words, a monthly and a daily rent at the same price read differently. */
  lemma RentPeriodsDistinguished(formattedPrice: string, currency: string, perMonth: string, perDay: string)
    requires perMonth != perDay
    ensures PriceLine(formattedPrice, currency, Rent, perMonth, perDay)
         != PriceLine(formattedPrice, currency, DailyRent, perMonth, perDay)
  {
    assert (" " + perMonth)[1..] == perMonth;
    assert (" " + perDay)[1..] == perDay;
  }

  /** The city, followed by ", " and the district when there is one. */
  function LocationLine(city: string, district: Option<string>): (r: string)
    ensures StartsWith(r, city)
    ensures r == city <==> !Truthy(district)
    ensures Truthy(district) ==> r == city + ", " + district.value
  {
    var r := if Truthy(district) then city + ", " + district.value else city;
    assert r[..|city|] == city;
    r
  }

  /** The link target of the card. */
  function CardHref(l: Locale, id: string): (href: string)
    ensures StartsWith(href, "/" + LocaleCode(l) + "/listings/")
    ensures href[|"/" + LocaleCode(l) + "/listings/"|..] == id
  {
    var prefix := "/" + LocaleCode(l) + "/listings/";
    assert (prefix + id)[..|prefix|] == prefix;
    prefix + id
  }

  // ----------------------------------------------------------------------------
  // Badges
  // ----------------------------------------------------------------------------

  /** What the badge row renders: a badge, or bare text. */
  datatype CardItem =
    | AreaBadge(area: real)
    | RoomsBadge(rooms: int)
    | FloorBadge(floor: int, totalFloors: Option<int>)
    | StrayText(text: string)

  /**
   * The badge row as written: each badge is guarded by the truthiness of its
   * number, and a guard that is the number 0 is itself rendered, as the text "0".
   */
  function BadgesAsWritten(area: Option<real>, rooms: Option<int>, floor: Option<int>, totalFloors: Option<int>)
    : (items: seq<CardItem>)
    ensures |items| <= 3
    ensures area == Some(0.0) || rooms == Some(0) || floor == Some(0) ==> StrayText("0") in items
    ensures area.Some? && area.value != 0.0 ==> AreaBadge(area.value) in items
    ensures rooms.Some? && rooms.value != 0 ==> RoomsBadge(rooms.value) in items
    ensures floor.Some? && floor.value != 0 ==> FloorBadge(floor.value, totalFloors) in items
    ensures forall x :: x in items && x.StrayText? ==> x.text == "0"
  {
    (match area
     case None => []
     case Some(a) => if a == 0.0 then [StrayText("0")] else [AreaBadge(a)])
    + (match rooms
       case None => []
       case Some(n) => if n == 0 then [StrayText("0")] else [RoomsBadge(n)])
    + (match floor
       case None => []
       case Some(f) => if f == 0 then [StrayText("0")] else [FloorBadge(f, totalFloors)])
  }

  /** A ground-floor flat (floor 0) gets a bare "0" in its badge row and no floor badge. */
  lemma GroundFloorShowsStrayZero()
    ensures BadgesAsWritten(None, None, Some(0), Some(5)) == [StrayText("0")]
  {
  }

  /** The badge row with each badge shown exactly when its number is present. */
  function Badges(area: Option<real>, rooms: Option<int>, floor: Option<int>, totalFloors: Option<int>)
    : (items: seq<CardItem>)
    ensures forall x :: x in items ==> !x.StrayText?
    ensures forall x :: x in items && x.AreaBadge? ==> area == Some(x.area)
    ensures forall x :: x in items && x.RoomsBadge? ==> rooms == Some(x.rooms)
    ensures forall x :: x in items && x.FloorBadge? ==> floor == Some(x.floor) && x.totalFloors == totalFloors
    ensures area.Some? ==> AreaBadge(area.value) in items
    ensures rooms.Some? ==> RoomsBadge(rooms.value) in items
    ensures floor.Some? ==> FloorBadge(floor.value, totalFloors) in items
  {
    (if area.Some? then [AreaBadge(area.value)] else [])
    + (if rooms.Some? then [RoomsBadge(rooms.value)] else [])
    + (if floor.Some? then [FloorBadge(floor.value, totalFloors)] else [])
  }

  /** The two rows agree whenever no number is zero; only zeros tell them apart. */
  lemma BadgesAgreeWithoutZeros(area: Option<real>, rooms: Option<int>, floor: Option<int>, totalFloors: Option<int>)
    ensures (area != Some(0.0) && rooms != Some(0) && floor != Some(0))
      <==> BadgesAsWritten(area, rooms, floor, totalFloors) == Badges(area, rooms, floor, totalFloors)
  {
    var w := BadgesAsWritten(area, rooms, floor, totalFloors);
    if area == Some(0.0) {
      assert w[0] == StrayText("0");
    } else if rooms == Some(0) {
      assert StrayText("0") in w;
    } else if floor == Some(0) {
      assert StrayText("0") in w;
    }
  }
}

=== FILE: listing_dtos.dfy ===
/**
 * The request payloads of the listings endpoints and the validation the
 * request pipeline applies to them before a handler runs: the query of
 * GET /listings and the body of POST /listings. A payload that fails any
 * field rule is answered 400 and never reaches the service.
 */
module ListingDtos {
  import opened Wrappers
  import opened Errors
  import opened ListingTypes

  const ValidationFailed := ApiError(BadRequest, "Bad Request")

  /** A query-string number after conversion with `Number(...)`: a real, or NaN. */
  datatype NumInput = Num(value: real) | NotANumber

  predicate IsInteger(x: real) {
    x.Floor as real == x
  }

  /** An optional integer field with a lower bound and an optional upper bound. */
  function IntField(o: Option<NumInput>, lo: int, hi: Option<int>): (r: Option<Option<int>>)
    ensures o.None? ==> r == Some(None)
    ensures r.Some? && r.value.Some? ==> lo <= r.value.value && (hi.Some? ==> r.value.value <= hi.value)
    ensures r.Some? && r.value.Some? ==> o == Some(Num(r.value.value as real))
    ensures o.Some? ==> (r.Some? <==> (o.value.Num? && IsInteger(o.value.value) && lo as real <= o.value.value
                                      && (hi.Some? ==> o.value.value <= hi.value as real)))
  {
    match o
    case None => Some(None)
    case Some(NotANumber) => None
    case Some(Num(x)) =>
      if IsInteger(x) && lo as real <= x && (hi.None? || x <= hi.value as real) then Some(Some(x.Floor)) else None
  }

  /** An optional number field that must not be negative. */
  function NonNegativeField(o: Option<NumInput>): (r: Option<Option<real>>)
    ensures o.None? ==> r == Some(None)
    ensures r.Some? && r.value.Some? ==> 0.0 <= r.value.value && o == Some(Num(r.value.value))
    ensures o.Some? ==> (r.Some? <==> o.value.Num? && 0.0 <= o.value.value)
  {
    match o
    case None => Some(None)
    case Some(NotANumber) => None
    case Some(Num(x)) => if 0.0 <= x then Some(Some(x)) else None
  }

  /** An optional enumeration field: absent, or one of the enumeration's names. */
  function EnumField<T>(o: Option<string>, parse: string -> Option<T>): (r: Option<Option<T>>)
    ensures o.None? ==> r == Some(None)
    ensures o.Some? ==> (r.Some? <==> parse(o.value).Some?)
    ensures o.Some? && r.Some? ==> r.value == parse(o.value)
  {
    match o
    case None => Some(None)
    case Some(s) => match parse(s) case None => None case Some(v) => Some(Some(v))
  }

  // ----------------------------------------------------------------------------
  // GET /listings query
  // ----------------------------------------------------------------------------

  datatype SortOrder = Asc | Desc

  /** The query string as received, numbers already converted. */
  datatype RawQuery = RawQuery(
    page: Option<NumInput>, limit: Option<NumInput>,
    propertyType: Option<string>, dealType: Option<string>, status: Option<string>,
    city: Option<string>, district: Option<string>,
    minPrice: Option<NumInput>, maxPrice: Option<NumInput>,
    minRooms: Option<NumInput>, maxRooms: Option<NumInput>,
    minArea: Option<NumInput>, maxArea: Option<NumInput>,
    sortBy: Option<string>, sortOrder: Option<string>,
    ownerId: Option<string>)

  /** The query after validation, with the declared defaults filled in. */
  datatype ListingQuery = ListingQuery(
    page: int, limit: int,
    propertyType: Option<PropertyType>, dealType: Option<DealType>, status: Option<ListingStatus>,
    city: Option<string>, district: Option<string>,
    minPrice: Option<real>, maxPrice: Option<real>,
    minRooms: Option<int>, maxRooms: Option<int>,
    minArea: Option<real>, maxArea: Option<real>,
    sortBy: string, sortOrder: SortOrder,
    ownerId: Option<string>)

  const DefaultPage := 1
  const DefaultLimit := 20
  const MaxLimit := 100
  const DefaultSortBy := "createdAt"

  function ParseSortOrder(s: string): (r: Option<SortOrder>)
    ensures r.Some? ==> SortOrderName(r.value) == s
    ensures r.None? <==> s != "asc" && s != "desc"
  {
    if s == "asc" then Some(Asc) else if s == "desc" then Some(Desc) else None
  }

  function SortOrderName(o: SortOrder): string {
    match o case Asc => "asc" case Desc => "desc"
  }

  function NonNegative(o: Option<real>): bool { o.None? || o.value >= 0.0 }
  function NonNegativeInt(o: Option<int>): bool { o.None? || o.value >= 0 }

  /** What a query that passed validation satisfies. No rule relates two fields. */
  predicate ValidQuery(q: ListingQuery) {
    && q.page >= 1
    && 1 <= q.limit <= MaxLimit
    && NonNegative(q.minPrice) && NonNegative(q.maxPrice)
    && NonNegativeInt(q.minRooms) && NonNegativeInt(q.maxRooms)
    && NonNegative(q.minArea) && NonNegative(q.maxArea)
  }

  function ValidateQuery(raw: RawQuery): (r: Result<ListingQuery, ApiError>)
    ensures r.Ok? ==> ValidQuery(r.value)
    ensures r.Err? ==> r.error == ValidationFailed
    // defaults
    ensures r.Ok? && raw.page.None? ==> r.value.page == DefaultPage
    ensures r.Ok? && raw.limit.None? ==> r.value.limit == DefaultLimit
    ensures r.Ok? && raw.sortBy.None? ==> r.value.sortBy == DefaultSortBy
    ensures r.Ok? && raw.sortOrder.None? ==> r.value.sortOrder == Desc
    // a limit out of range is rejected, never clamped
    ensures (exists x :: raw.limit == Some(Num(x)) && (x < 1.0 || x > MaxLimit as real)) ==> r.Err?
    ensures (exists x :: raw.page == Some(Num(x)) && x < 1.0) ==> r.Err?
    // enumeration members only
    ensures raw.propertyType.Some? && ParsePropertyType(raw.propertyType.value).None? ==> r.Err?
    ensures raw.dealType.Some? && ParseDealType(raw.dealType.value).None? ==> r.Err?
    ensures raw.status.Some? && ParseStatus(raw.status.value).None? ==> r.Err?
    ensures raw.sortOrder.Some? && raw.sortOrder.value != "asc" && raw.sortOrder.value != "desc" ==> r.Err?
    ensures r.Ok? && raw.status.Some? ==> r.value.status.Some? && StatusName(r.value.status.value) == raw.status.value
    // free strings are passed through
    ensures r.Ok? ==> r.value.city == raw.city && r.value.district == raw.district && r.value.ownerId == raw.ownerId
    // an accepted query string is exactly the one its result would spell: nothing was dropped, floored or reinterpreted
    ensures r.Ok? ==> raw == QueryToRaw(r.value, Spelled(raw.page.Some?, raw.limit.Some?, raw.sortBy.Some?, raw.sortOrder.Some?))
  {
    var page := IntField(raw.page, 1, None);
    var limit := IntField(raw.limit, 1, Some(MaxLimit));
    var pt := EnumField(raw.propertyType, ParsePropertyType);
    var dt := EnumField(raw.dealType, ParseDealType);
    var st := EnumField(raw.status, ParseStatus);
    var minP, maxP := NonNegativeField(raw.minPrice), NonNegativeField(raw.maxPrice);
    var minR, maxR := IntField(raw.minRooms, 0, None), IntField(raw.maxRooms, 0, None);
    var minA, maxA := NonNegativeField(raw.minArea), NonNegativeField(raw.maxArea);
    var so := EnumField(raw.sortOrder, ParseSortOrder);
    if page.None? || limit.None? || pt.None? || dt.None? || st.None? || minP.None? || maxP.None?
       || minR.None? || maxR.None? || minA.None? || maxA.None? || so.None?
    then Err(ValidationFailed)
    else
      var q := ListingQuery(
        page.value.GetOr(DefaultPage), limit.value.GetOr(DefaultLimit),
        pt.value, dt.value, st.value,
        raw.city, raw.district,
        minP.value, maxP.value, minR.value, maxR.value, minA.value, maxA.value,
        raw.sortBy.GetOr(DefaultSortBy), so.value.GetOr(Desc),
        raw.ownerId);
      assert raw == QueryToRaw(q, Spelled(raw.page.Some?, raw.limit.Some?, raw.sortBy.Some?, raw.sortOrder.Some?)) by {
        assert MapOption(q.propertyType, PropertyTypeName) == raw.propertyType;
        assert MapOption(q.dealType, DealTypeName) == raw.dealType;
        assert MapOption(q.status, StatusName) == raw.status;
        assert RealInput(q.minPrice) == raw.minPrice && RealInput(q.maxPrice) == raw.maxPrice;
        assert RealInput(q.minArea) == raw.minArea && RealInput(q.maxArea) == raw.maxArea;
        assert IntInput(q.minRooms) == raw.minRooms && IntInput(q.maxRooms) == raw.maxRooms;
        assert raw.sortOrder.Some? ==> Some(SortOrderName(q.sortOrder)) == raw.sortOrder;
      }
      Ok(q)
  }

  function IntInput(o: Option<int>): Option<NumInput> {
    match o case None => None case Some(n) => Some(Num(n as real))
  }

  function RealInput(o: Option<real>): Option<NumInput> {
    match o case None => None case Some(x) => Some(Num(x))
  }

  function MapOption<T, U>(o: Option<T>, f: T -> U): Option<U> {
    match o case None => None case Some(v) => Some(f(v))
  }

  /** Which of the defaulted query fields a client writes out; the others are left off the URL. */
  datatype Spelled = Spelled(page: bool, limit: bool, sortBy: bool, sortOrder: bool)

  const AllSpelled := Spelled(true, true, true, true)
  const NoneSpelled := Spelled(false, false, false, false)

  /**
   * The query string a client would send for a validated query: the optional
   * filters as they are in `q`, and each defaulted field when `spelled` says so.
   */
  function QueryToRaw(q: ListingQuery, spelled: Spelled): RawQuery {
    RawQuery(
      if spelled.page then Some(Num(q.page as real)) else None,
      if spelled.limit then Some(Num(q.limit as real)) else None,
      MapOption(q.propertyType, PropertyTypeName), MapOption(q.dealType, DealTypeName),
      MapOption(q.status, StatusName),
      q.city, q.district,
      RealInput(q.minPrice), RealInput(q.maxPrice),
      IntInput(q.minRooms), IntInput(q.maxRooms),
      RealInput(q.minArea), RealInput(q.maxArea),
      if spelled.sortBy then Some(q.sortBy) else None,
      if spelled.sortOrder then Some(SortOrderName(q.sortOrder)) else None,
      q.ownerId)
  }

  /** `q` with the fields a client left off replaced by their declared defaults. */
  function WithDefaults(q: ListingQuery, spelled: Spelled): ListingQuery {
    q.(page := if spelled.page then q.page else DefaultPage,
       limit := if spelled.limit then q.limit else DefaultLimit,
       sortBy := if spelled.sortBy then q.sortBy else DefaultSortBy,
       sortOrder := if spelled.sortOrder then q.sortOrder else Desc)
  }

  /**
   * Validation accepts every query that satisfies the field rules, whichever
   * of the defaulted fields it leaves off: a field that is given comes out
   * unchanged, and one that is left off takes its default. Together with the
   * ensures of ValidateQuery this pins down which queries pass.
   */
  lemma ValidateQueryAcceptsValid(q: ListingQuery, spelled: Spelled)
    requires ValidQuery(q)
    ensures ValidateQuery(QueryToRaw(q, spelled)) == Ok(WithDefaults(q, spelled))
    ensures ValidateQuery(QueryToRaw(q, AllSpelled)) == Ok(q)
  {
    var raw := QueryToRaw(q, spelled);
    assert IntField(Some(Num(q.page as real)), 1, None) == Some(Some(q.page)) by {
      assert (q.page as real).Floor == q.page;
    }
    assert IntField(Some(Num(q.limit as real)), 1, Some(MaxLimit)) == Some(Some(q.limit)) by {
      assert (q.limit as real).Floor == q.limit;
    }
    assert IntField(raw.minRooms, 0, None) == Some(q.minRooms) by {
      assert q.minRooms.Some? ==> (q.minRooms.value as real).Floor == q.minRooms.value;
    }
    assert IntField(raw.maxRooms, 0, None) == Some(q.maxRooms) by {
      assert q.maxRooms.Some? ==> (q.maxRooms.value as real).Floor == q.maxRooms.value;
    }
    assert EnumField(raw.propertyType, ParsePropertyType) == Some(q.propertyType);
    assert EnumField(raw.dealType, ParseDealType) == Some(q.dealType);
    assert EnumField(raw.status, ParseStatus) == Some(q.status);
    assert EnumField(Some(SortOrderName(q.sortOrder)), ParseSortOrder) == Some(Some(q.sortOrder)) by {
      assert ParseSortOrder(SortOrderName(q.sortOrder)) == Some(q.sortOrder);
    }
    assert NonNegativeField(raw.minPrice) == Some(q.minPrice);
    assert NonNegativeField(raw.maxPrice) == Some(q.maxPrice);
    assert NonNegativeField(raw.minArea) == Some(q.minArea);
    assert NonNegativeField(raw.maxArea) == Some(q.maxArea);
  }

  /** An optional number that `@Min(0)` accepts: absent, or a number that is not negative. */
  predicate NonNegativeInput(o: Option<NumInput>) {
    o.None? || (o.value.Num? && o.value.value >= 0.0)
  }

  /** An optional number that `@IsInt` with a lower bound accepts. */
  predicate WholeInputFrom(o: Option<NumInput>, lo: real) {
    o.None? || (o.value.Num? && IsInteger(o.value.value) && o.value.value >= lo)
  }

  /**
   * An accepted query had well-formed numbers: price and area bounds are
   * numbers that are not negative (NaN and negatives are turned away), and
   * page, limit and room bounds are whole numbers in range (2.5 is turned
   * away, not floored).
   */
  lemma AcceptedQueryNumbersWellFormed(raw: RawQuery)
    requires ValidateQuery(raw).Ok?
    ensures NonNegativeInput(raw.minPrice) && NonNegativeInput(raw.maxPrice)
    ensures NonNegativeInput(raw.minArea) && NonNegativeInput(raw.maxArea)
    ensures WholeInputFrom(raw.page, 1.0) && WholeInputFrom(raw.limit, 1.0)
    ensures raw.limit.Some? ==> raw.limit.value.value <= MaxLimit as real
    ensures WholeInputFrom(raw.minRooms, 0.0) && WholeInputFrom(raw.maxRooms, 0.0)
  {
    var q := ValidateQuery(raw).value;
    assert ValidQuery(q);
    assert raw == QueryToRaw(q, Spelled(raw.page.Some?, raw.limit.Some?, raw.sortBy.Some?, raw.sortOrder.Some?));
    assert raw.page.Some? ==> (q.page as real).Floor == q.page;
    assert raw.limit.Some? ==> (q.limit as real).Floor == q.limit;
    assert q.minRooms.Some? ==> (q.minRooms.value as real).Floor == q.minRooms.value;
    assert q.maxRooms.Some? ==> (q.maxRooms.value as real).Floor == q.maxRooms.value;
  }

  /** GET /listings with no query string: page 1 of 20 ACTIVE listings, newest first. */
  lemma EmptyQueryGetsDefaults()
    ensures ValidateQuery(RawQuery(None, None, None, None, None, None, None, None, None, None, None, None, None,
                                   None, None, None))
         == Ok(ListingQuery(DefaultPage, DefaultLimit, None, None, None, None, None, None, None, None, None,
                            None, None, DefaultSortBy, Desc, None))
  {
  }

  /** There is no cross-field rule: an empty price range passes validation. */
  lemma InvertedPriceRangeAccepted(q: ListingQuery, spelled: Spelled)
    requires ValidQuery(q)
    requires q.minPrice == Some(200.0) && q.maxPrice == Some(100.0)
    ensures ValidateQuery(QueryToRaw(q, spelled)).Ok?
  {
    ValidateQueryAcceptsValid(q, spelled);
  }

  // ----------------------------------------------------------------------------
  // POST /listings body
  // ----------------------------------------------------------------------------

  /**
   * The JSON body as received. Numbers are JSON numbers (never NaN); a value of
   * the wrong JSON type is not modelled. There is no status field.
   */
  datatype RawCreate = RawCreate(
    propertyType: Option<string>, dealType: Option<string>,
    title: Option<LocalizedText>, description: Option<LocalizedText>,
    city: Option<string>, district: Option<string>, address: Option<string>,
    latitude: Option<real>, longitude: Option<real>,
    price: Option<real>, currency: Option<string>,
    area: Option<real>,
    rooms: Option<real>, bedrooms: Option<real>, bathrooms: Option<real>,
    floor: Option<real>, totalFloors: Option<real>,
    features: Option<Features>)

  datatype CreateListingDto = CreateListingDto(
    propertyType: PropertyType, dealType: DealType,
    title: LocalizedText, description: LocalizedText,
    city: string, district: Option<string>, address: Option<string>,
    latitude: Option<real>, longitude: Option<real>,
    price: real, currency: Option<string>,
    area: Option<real>,
    rooms: Option<int>, bedrooms: Option<int>, bathrooms: Option<int>,
    floor: Option<int>, totalFloors: Option<int>,
    features: Option<Features>)

  /**
   * The field rules of the create payload. Titles and descriptions may have no
   * language at all, price may be zero, and `floor` is not related to `totalFloors`.
   */
  predicate ValidCreate(d: CreateListingDto) {
    && d.city != ""
    && d.price >= 0.0
    && NonNegative(d.area)
    && NonNegativeInt(d.rooms) && NonNegativeInt(d.bedrooms) && NonNegativeInt(d.bathrooms)
    && NonNegativeInt(d.floor) && NonNegativeInt(d.totalFloors)
  }

  /** An optional body integer: absent, or a whole number that is not negative. */
  function CountField(o: Option<real>): (r: Option<Option<int>>)
    ensures o.None? ==> r == Some(None)
    ensures o.Some? ==> (r.Some? <==> IsInteger(o.value) && o.value >= 0.0)
    ensures r.Some? && r.value.Some? ==> r.value.value >= 0 && o == Some(r.value.value as real)
  {
    match o
    case None => Some(None)
    case Some(x) => if IsInteger(x) && x >= 0.0 then Some(Some(x.Floor)) else None
  }

  function ValidateCreate(raw: RawCreate): (r: Result<CreateListingDto, ApiError>)
    ensures r.Ok? ==> ValidCreate(r.value)
    ensures r.Err? ==> r.error == ValidationFailed
    ensures (|| raw.propertyType.None? || raw.dealType.None? || raw.title.None? || raw.description.None?
             || raw.city.None? || raw.price.None?) ==> r.Err?
    ensures raw.propertyType.Some? && ParsePropertyType(raw.propertyType.value).None? ==> r.Err?
    ensures raw.dealType.Some? && ParseDealType(raw.dealType.value).None? ==> r.Err?
    ensures raw.city == Some("") ==> r.Err?
    ensures raw.price.Some? && raw.price.value < 0.0 ==> r.Err?
    ensures raw.area.Some? && raw.area.value < 0.0 ==> r.Err?
    ensures r.Ok? ==> && Some(r.value.title) == raw.title && Some(r.value.description) == raw.description
                      && Some(r.value.city) == raw.city && Some(r.value.price) == raw.price
                      && r.value.features == raw.features && r.value.currency == raw.currency
    // an accepted body is exactly the one its result would send: nothing was dropped, floored or reinterpreted
    ensures r.Ok? ==> raw == CreateToRaw(r.value)
  {
    var pt := EnumField(raw.propertyType, ParsePropertyType);
    var dt := EnumField(raw.dealType, ParseDealType);
    var area := if raw.area.Some? && raw.area.value < 0.0 then None else Some(raw.area);
    var rooms, bedrooms, bathrooms := CountField(raw.rooms), CountField(raw.bedrooms), CountField(raw.bathrooms);
    var floor, totalFloors := CountField(raw.floor), CountField(raw.totalFloors);
    if || pt.None? || pt.value.None? || dt.None? || dt.value.None?
       || raw.title.None? || raw.description.None?
       || raw.city.None? || raw.city.value == ""
       || raw.price.None? || raw.price.value < 0.0
       || area.None? || rooms.None? || bedrooms.None? || bathrooms.None? || floor.None? || totalFloors.None?
    then Err(ValidationFailed)
    else Ok(CreateListingDto(
      pt.value.value, dt.value.value, raw.title.value, raw.description.value,
      raw.city.value, raw.district, raw.address, raw.latitude, raw.longitude,
      raw.price.value, raw.currency, area.value,
      rooms.value, bedrooms.value, bathrooms.value, floor.value, totalFloors.value,
      raw.features))
  }

  function IntAsReal(o: Option<int>): Option<real> {
    match o case None => None case Some(n) => Some(n as real)
  }

  /** The JSON body a client would send for a payload. */
  function CreateToRaw(d: CreateListingDto): RawCreate {
    RawCreate(
      Some(PropertyTypeName(d.propertyType)), Some(DealTypeName(d.dealType)),
      Some(d.title), Some(d.description),
      Some(d.city), d.district, d.address, d.latitude, d.longitude,
      Some(d.price), d.currency, d.area,
      IntAsReal(d.rooms), IntAsReal(d.bedrooms), IntAsReal(d.bathrooms),
      IntAsReal(d.floor), IntAsReal(d.totalFloors),
      d.features)
  }

  /** Every payload that satisfies the field rules is accepted unchanged. */
  lemma ValidateCreateAcceptsValid(d: CreateListingDto)
    requires ValidCreate(d)
    ensures ValidateCreate(CreateToRaw(d)) == Ok(d)
  {
    assert d.rooms.Some? ==> (d.rooms.value as real).Floor == d.rooms.value;
    assert d.bedrooms.Some? ==> (d.bedrooms.value as real).Floor == d.bedrooms.value;
    assert d.bathrooms.Some? ==> (d.bathrooms.value as real).Floor == d.bathrooms.value;
    assert d.floor.Some? ==> (d.floor.value as real).Floor == d.floor.value;
    assert d.totalFloors.Some? ==> (d.totalFloors.value as real).Floor == d.totalFloors.value;
  }

  /**
   * An accepted body had whole, non-negative counts: a negative or fractional
   * rooms, bedrooms, bathrooms, floor or totalFloors is turned away, never
   * dropped or rounded.
   */
  lemma AcceptedCreateCountsWellFormed(raw: RawCreate)
    requires ValidateCreate(raw).Ok?
    ensures forall o :: o in [raw.rooms, raw.bedrooms, raw.bathrooms, raw.floor, raw.totalFloors] ==>
              o.None? || (IsInteger(o.value) && o.value >= 0.0)
    ensures raw.area.Some? ==> raw.area.value >= 0.0
  {
    var d := ValidateCreate(raw).value;
    assert ValidCreate(d) && raw == CreateToRaw(d);
    assert d.rooms.Some? ==> (d.rooms.value as real).Floor == d.rooms.value;
    assert d.bedrooms.Some? ==> (d.bedrooms.value as real).Floor == d.bedrooms.value;
    assert d.bathrooms.Some? ==> (d.bathrooms.value as real).Floor == d.bathrooms.value;
    assert d.floor.Some? ==> (d.floor.value as real).Floor == d.floor.value;
    assert d.totalFloors.Some? ==> (d.totalFloors.value as real).Floor == d.totalFloors.value;
  }

  /** A listing priced at zero with no title in any language passes validation. */
  lemma ZeroPriceUntitledAccepted(d: CreateListingDto)
    requires ValidCreate(d)
    requires d.price == 0.0 && d.title == LocalizedText(None, None, None)
    ensures ValidateCreate(CreateToRaw(d)).Ok?
  {
    ValidateCreateAcceptsValid(d);
  }

  // ----------------------------------------------------------------------------
  // PATCH /listings/:id body
  // ----------------------------------------------------------------------------

  /** Every field optional; an absent field is left untouched by the update. */
  datatype UpdateListingDto = UpdateListingDto(
    propertyType: Option<PropertyType>, dealType: Option<DealType>,
    title: Option<LocalizedText>, description: Option<LocalizedText>,
    city: Option<string>, district: Option<string>, address: Option<string>,
    latitude: Option<real>, longitude: Option<real>,
    price: Option<real>, currency: Option<string>,
    area: Option<real>,
    rooms: Option<int>, bedrooms: Option<int>, bathrooms: Option<int>,
    floor: Option<int>, totalFloors: Option<int>,
    features: Option<Features>)

  const EmptyUpdate := UpdateListingDto(None, None, None, None, None, None, None, None, None,
                                        None, None, None, None, None, None, None, None, None)
}

=== FILE: listing_form.dfy ===
/**
 * The create/edit form of the web client: the state it starts from, the
 * checks it makes on submit, and the request it then sends. The form keeps a
 * title and a description as three plain strings (empty when not filled in),
 * and keeps the optional numbers absent rather than zero.
 */
module ListingForm {
  import opened Wrappers
  import opened ListingTypes
  import opened ListingDtos
  import LS = ListingsService

  datatype LangText = LangText(en: string, ru: string, uz: string)

  datatype FormState = FormState(
    propertyType: PropertyType, dealType: DealType,
    title: LangText, description: LangText,
    city: string, district: string, address: string,
    price: real, currency: string,
    area: Option<real>,
    rooms: Option<int>, bedrooms: Option<int>, bathrooms: Option<int>,
    floor: Option<int>, totalFloors: Option<int>)

  /** What the form sends: a create body, or an update of the listing being edited. */
  datatype Request = CreateRequest(body: RawCreate) | UpdateRequest(id: string, changes: UpdateListingDto)

  const TitleRequired := "Title is required in at least one language"
  const DescriptionRequired := "Description is required in at least one language"
  const CityRequired := "City is required"
  const PriceNotPositive := "Price must be greater than 0"

  // ----------------------------------------------------------------------------
  // JavaScript `||` defaults
  // ----------------------------------------------------------------------------

  /** `s || ''`. */
  function OrEmpty(s: Option<string>): (r: string)
    ensures r == "" <==> !Truthy(s)
    ensures Truthy(s) ==> r == s.value
  {
    if Truthy(s) then s.value else ""
  }

  /** `s || undefined` on a string: the empty string is not sent. */
  function NonEmptyOrAbsent(s: string): (r: Option<string>)
    ensures r.None? <==> s == ""
    ensures r.Some? ==> r.value == s
  {
    if s == "" then None else Some(s)
  }

  /** `x || undefined` on a number: zero is treated as not given. */
  function NonZeroReal(x: Option<real>): (r: Option<real>)
    ensures r.None? <==> x.None? || x.value == 0.0
    ensures r.Some? ==> r == x
  {
    if x.Some? && x.value != 0.0 then x else None
  }

  function NonZeroInt(x: Option<int>): (r: Option<int>)
    ensures r.None? <==> x.None? || x.value == 0
    ensures r.Some? ==> r == x
  {
    if x.Some? && x.value != 0 then x else None
  }

  function TextFields(t: Option<LocalizedText>): LangText {
    if t.None? then LangText("", "", "") else LangText(OrEmpty(t.value.en), OrEmpty(t.value.ru), OrEmpty(t.value.uz))
  }

  /** The optional numbers of a form are never zero. */
  predicate NoZeroNumbers(f: FormState) {
    && NonZeroReal(f.area) == f.area
    && NonZeroInt(f.rooms) == f.rooms && NonZeroInt(f.bedrooms) == f.bedrooms && NonZeroInt(f.bathrooms) == f.bathrooms
    && NonZeroInt(f.floor) == f.floor && NonZeroInt(f.totalFloors) == f.totalFloors
  }

  const BlankForm := FormState(Apartment, Sale, LangText("", "", ""), LangText("", "", ""), "", "", "",
                               0.0, "UZS", None, None, None, None, None, None)

  /**
   * The state the form opens with: blank for a new listing, or the fields of
   * the listing being edited, with empty and zero values replaced by the defaults.
   */
  function InitialForm(listing: Option<LS.ListingView>): (f: FormState)
    ensures listing.None? ==> f == BlankForm
    ensures NoZeroNumbers(f)
    ensures listing.Some? ==> var v := listing.value; var row := v.row;
      && f.propertyType == row.propertyType && f.dealType == row.dealType
      && f.city == row.city && f.price == row.price
      && f.currency == (if row.currency == "" then "UZS" else row.currency)
      // each language of the texts, or "" when it is missing or the text is null
      && (v.title.Some? ==> f.title == LangText(OrEmpty(v.title.value.en), OrEmpty(v.title.value.ru), OrEmpty(v.title.value.uz)))
      && (v.title.None? ==> f.title == LangText("", "", ""))
      && (v.description.Some? ==>
            f.description == LangText(OrEmpty(v.description.value.en), OrEmpty(v.description.value.ru), OrEmpty(v.description.value.uz)))
      && (v.description.None? ==> f.description == LangText("", "", ""))
      && f.district == (if Truthy(row.district) then row.district.value else "")
      && f.address == (if Truthy(row.address) then row.address.value else "")
      // a stored zero opens as an empty field; any other stored number as itself
      && f.area == NonZeroReal(row.area) && f.rooms == NonZeroInt(row.rooms)
      && f.bedrooms == NonZeroInt(row.bedrooms) && f.bathrooms == NonZeroInt(row.bathrooms)
      && f.floor == NonZeroInt(row.floor) && f.totalFloors == NonZeroInt(row.totalFloors)
  {
    match listing
    case None => BlankForm
    case Some(v) =>
      var row := v.row;
      FormState(
        row.propertyType, row.dealType, TextFields(v.title), TextFields(v.description),
        row.city, OrEmpty(row.district), OrEmpty(row.address),
        row.price, if row.currency == "" then "UZS" else row.currency,
        NonZeroReal(row.area),
        NonZeroInt(row.rooms), NonZeroInt(row.bedrooms), NonZeroInt(row.bathrooms),
        NonZeroInt(row.floor), NonZeroInt(row.totalFloors))
  }

  // ----------------------------------------------------------------------------
  // Submit
  // ----------------------------------------------------------------------------

  predicate HasAnyText(t: LangText) {
    t.en != "" || t.ru != "" || t.uz != ""
  }

  /** The form's own checks, which come before any request. */
  predicate FormAccepts(f: FormState) {
    HasAnyText(f.title) && HasAnyText(f.description) && f.city != "" && f.price > 0.0
  }

  /** Every language is sent, the ones left blank as empty strings. */
  function AllLanguages(t: LangText): LocalizedText {
    LocalizedText(Some(t.en), Some(t.ru), Some(t.uz))
  }

  function CreateBody(f: FormState): RawCreate {
    RawCreate(
      Some(PropertyTypeName(f.propertyType)), Some(DealTypeName(f.dealType)),
      Some(AllLanguages(f.title)), Some(AllLanguages(f.description)),
      Some(f.city), NonEmptyOrAbsent(f.district), NonEmptyOrAbsent(f.address), None, None,
      Some(f.price), Some(f.currency), NonZeroReal(f.area),
      IntAsReal(NonZeroInt(f.rooms)), IntAsReal(NonZeroInt(f.bedrooms)), IntAsReal(NonZeroInt(f.bathrooms)),
      IntAsReal(NonZeroInt(f.floor)), IntAsReal(NonZeroInt(f.totalFloors)),
      None)
  }

  function UpdateBody(f: FormState): UpdateListingDto {
    UpdateListingDto(
      Some(f.propertyType), Some(f.dealType),
      Some(AllLanguages(f.title)), Some(AllLanguages(f.description)),
      Some(f.city), NonEmptyOrAbsent(f.district), NonEmptyOrAbsent(f.address), None, None,
      Some(f.price), Some(f.currency), NonZeroReal(f.area),
      NonZeroInt(f.rooms), NonZeroInt(f.bedrooms), NonZeroInt(f.bathrooms),
      NonZeroInt(f.floor), NonZeroInt(f.totalFloors),
      None)
  }

  /**
   * Submits the form. `editing` is the id of the listing being edited, if any.
   * The checks run in a fixed order and the first that fails gives the message shown.
   */
  function Submit(f: FormState, editing: Option<string>): (r: Result<Request, string>)
    ensures r.Ok? <==> FormAccepts(f)
    ensures !HasAnyText(f.title) ==> r == Err(TitleRequired)
    ensures HasAnyText(f.title) && !HasAnyText(f.description) ==> r == Err(DescriptionRequired)
    ensures HasAnyText(f.title) && HasAnyText(f.description) && f.city == "" ==> r == Err(CityRequired)
    ensures HasAnyText(f.title) && HasAnyText(f.description) && f.city != "" && f.price <= 0.0
            ==> r == Err(PriceNotPositive)
    ensures r.Ok? ==> (r.value.CreateRequest? <==> editing.None?)
    ensures r.Ok? && editing.Some? ==> r.value.id == editing.value
  {
    if !HasAnyText(f.title) then Err(TitleRequired)
    else if !HasAnyText(f.description) then Err(DescriptionRequired)
    else if f.city == "" then Err(CityRequired)
    else if f.price <= 0.0 then Err(PriceNotPositive)
    else if editing.None? then Ok(CreateRequest(CreateBody(f)))
    else Ok(UpdateRequest(editing.value, UpdateBody(f)))
  }

  /** A new listing cannot be submitted before a title, description, city and price are filled in. */
  lemma BlankFormRefused(editing: Option<string>)
    ensures Submit(InitialForm(None), editing) == Err(TitleRequired)
  {
  }

  /** The numbers of a form that the service requires to be non-negative. */
  predicate NonNegativeNumbers(f: FormState) {
    && NonNegative(f.area)
    && NonNegativeInt(f.rooms) && NonNegativeInt(f.bedrooms) && NonNegativeInt(f.bathrooms)
    && NonNegativeInt(f.floor) && NonNegativeInt(f.totalFloors)
  }

  /**
   * Every body the form sends for a new listing with non-negative numbers
   * passes the service's validation, and arrives with the texts, city and
   * price the user entered.
   */
  lemma CreateBodyAccepted(f: FormState)
    requires FormAccepts(f) && NonNegativeNumbers(f)
    ensures Submit(f, None) == Ok(CreateRequest(CreateBody(f)))
    ensures ValidateCreate(CreateBody(f)).Ok?
    ensures var d := ValidateCreate(CreateBody(f)).value;
      && d.title == AllLanguages(f.title) && d.description == AllLanguages(f.description)
      && d.city == f.city && d.price == f.price && d.propertyType == f.propertyType
  {
    var d := CreateListingDto(
      f.propertyType, f.dealType, AllLanguages(f.title), AllLanguages(f.description),
      f.city, NonEmptyOrAbsent(f.district), NonEmptyOrAbsent(f.address), None, None,
      f.price, Some(f.currency), NonZeroReal(f.area),
      NonZeroInt(f.rooms), NonZeroInt(f.bedrooms), NonZeroInt(f.bathrooms),
      NonZeroInt(f.floor), NonZeroInt(f.totalFloors), None);
    assert ValidCreate(d);
    assert CreateToRaw(d) == CreateBody(f);
    ValidateCreateAcceptsValid(d);
  }

  /**
   * The form is stricter than the service about price: a body priced at zero
   * is valid for the service, but the form never sends one.
   */
  lemma FormStricterOnPrice(f: FormState, editing: Option<string>)
    requires HasAnyText(f.title) && HasAnyText(f.description) && f.city != "" && NonNegativeNumbers(f)
    requires f.price == 0.0
    ensures Submit(f, editing) == Err(PriceNotPositive)
    ensures ValidateCreate(CreateBody(f)).Ok?
  {
    CreateBodyAccepted(f.(price := 1.0));
    assert CreateBody(f) == CreateBody(f.(price := 1.0)).(price := Some(0.0));
  }

  /**
   * Clearing the district of a listing being edited does not clear it: the
   * empty field is left out of the update, and an absent field keeps its value.
   */
  lemma ClearedDistrictKept(f: FormState, id: string, row: LS.ListingRow)
    requires FormAccepts(f) && f.district == ""
    ensures Submit(f, Some(id)).value.changes.district.None?
    ensures LS.Merge(row, Submit(f, Some(id)).value.changes).district == row.district
  {
  }

  /**
   * Opening a listing whose texts have all three languages and saving it
   * without changes leaves what clients read back as it was.
   */
  lemma {:induction false} UnchangedEditKeepsListing(row: LS.ListingRow, id: string)
    requires LS.RowParses(row)
    requires var v := LS.View(row);
      && v.title.Some? && v.title.value.en.Some? && v.title.value.ru.Some? && v.title.value.uz.Some?
      && v.description.Some? && v.description.value.en.Some? && v.description.value.ru.Some? && v.description.value.uz.Some?
    requires FormAccepts(InitialForm(Some(LS.View(row)))) && row.currency != ""
    ensures Submit(InitialForm(Some(LS.View(row))), Some(id)).Ok?
    ensures var changes := Submit(InitialForm(Some(LS.View(row))), Some(id)).value.changes;
      LS.RowParses(LS.Merge(row, changes)) &&
      var w := LS.View(LS.Merge(row, changes));
      && w.title == LS.View(row).title && w.description == LS.View(row).description
      && w.features == LS.View(row).features
      && w.row == row.(title := w.row.title, description := w.row.description)
  {
    var v := LS.View(row);
    var f := InitialForm(Some(v));
    var changes := UpdateBody(f);
    assert Submit(f, Some(id)) == Ok(UpdateRequest(id, changes));
    LS.MergeReadBack(row, changes);
    assert AllLanguages(f.title) == v.title.value;
    assert AllLanguages(f.description) == v.description.value;
  }
}

=== FILE: listing_types.dfy ===
/**
 * The listing vocabulary shared by the backend and the web client: the three
 * enumerations, localized text, and the open `features` record.
 */
module ListingTypes {
  import opened Wrappers

  datatype PropertyType = Apartment | House | Townhouse | Commercial | Land | Garage

  datatype DealType = Sale | Rent | DailyRent

  datatype ListingStatus = Draft | Pending | Active | Sold | Rented | Archived | Rejected

  /** The wire name of each enumeration member. */
  function PropertyTypeName(p: PropertyType): string {
    match p
    case Apartment => "APARTMENT"
    case House => "HOUSE"
    case Townhouse => "TOWNHOUSE"
    case Commercial => "COMMERCIAL"
    case Land => "LAND"
    case Garage => "GARAGE"
  }

  function DealTypeName(d: DealType): string {
    match d
    case Sale => "SALE"
    case Rent => "RENT"
    case DailyRent => "DAILY_RENT"
  }

  function StatusName(s: ListingStatus): string {
    match s
    case Draft => "DRAFT"
    case Pending => "PENDING"
    case Active => "ACTIVE"
    case Sold => "SOLD"
    case Rented => "RENTED"
    case Archived => "ARCHIVED"
    case Rejected => "REJECTED"
  }

  /** Enum membership, as `@IsEnum` checks it: the string must be one of the wire names. */
  function ParsePropertyType(s: string): (r: Option<PropertyType>)
    ensures r.Some? ==> PropertyTypeName(r.value) == s
    ensures forall p: PropertyType :: PropertyTypeName(p) == s ==> r == Some(p)
  {
    if s == "APARTMENT" then Some(Apartment)
    else if s == "HOUSE" then Some(House)
    else if s == "TOWNHOUSE" then Some(Townhouse)
    else if s == "COMMERCIAL" then Some(Commercial)
    else if s == "LAND" then Some(Land)
    else if s == "GARAGE" then Some(Garage)
    else None
  }

  function ParseDealType(s: string): (r: Option<DealType>)
    ensures r.Some? ==> DealTypeName(r.value) == s
    ensures forall d: DealType :: DealTypeName(d) == s ==> r == Some(d)
  {
    if s == "SALE" then Some(Sale)
    else if s == "RENT" then Some(Rent)
    else if s == "DAILY_RENT" then Some(DailyRent)
    else None
  }

  function ParseStatus(s: string): (r: Option<ListingStatus>)
    ensures r.Some? ==> StatusName(r.value) == s
    ensures forall st: ListingStatus :: StatusName(st) == s ==> r == Some(st)
  {
    if s == "DRAFT" then Some(Draft)
    else if s == "PENDING" then Some(Pending)
    else if s == "ACTIVE" then Some(Active)
    else if s == "SOLD" then Some(Sold)
    else if s == "RENTED" then Some(Rented)
    else if s == "ARCHIVED" then Some(Archived)
    else if s == "REJECTED" then Some(Rejected)
    else None
  }

  /**
   * Localized text as the backend receives it: every language optional.
   * (The shared front-end type makes `ru` mandatory; the backend does not.)
   */
  datatype LocalizedText = LocalizedText(en: Option<string>, ru: Option<string>, uz: Option<string>)

  /** The open `features` object: its entries in order, each value an opaque JSON text. */
  type Features = seq<(string, string)>

  /** JavaScript truthiness of an optional string: present and not empty. */
  predicate Truthy(s: Option<string>) {
    s.Some? && s.value != ""
  }
}

=== FILE: listings_client.dfy ===
/**
 * The web client's request for the listings page: how the query object is
 * turned into the URL it fetches. The object is its list of entries in
 * property order. Numbers and booleans arrive already converted to their
 * string form, and `encode` is the form encoding of one key or value.
 */
module ListingsClient {
  import opened Wrappers
  import opened Text

  /** The value of one query entry. */
  datatype ParamValue = Undefined | Null | Scalar(text: string) | Many(items: seq<string>)

  type Entry = (string, ParamValue)

  /** The pairs one entry adds: none when absent, one per element for an array. */
  function EntryPairs(e: Entry): (pairs: seq<(string, string)>)
    ensures forall p :: p in pairs ==> p.0 == e.0
    ensures pairs == [] <==> e.1.Undefined? || e.1.Null? || e.1 == Many([])
    ensures e.1.Scalar? ==> pairs == [(e.0, e.1.text)]
    ensures e.1.Many? ==> |pairs| == |e.1.items| && forall i :: 0 <= i < |pairs| ==> pairs[i] == (e.0, e.1.items[i])
  {
    match e.1
    case Undefined => []
    case Null => []
    case Scalar(t) => [(e.0, t)]
    case Many(items) => seq(|items|, i requires 0 <= i < |items| => (e.0, items[i]))
  }

  /** The pairs of all entries, in entry order. */
  function QueryPairs(entries: seq<Entry>): seq<(string, string)>
  {
    if entries == [] then [] else EntryPairs(entries[0]) + QueryPairs(entries[1..])
  }

  /**
   * Every pair comes from an entry with its key, and there are no pairs
   * exactly when no entry has a value to add.
   */
  lemma {:induction false} QueryPairsFromEntries(entries: seq<Entry>)
    ensures forall p :: p in QueryPairs(entries) ==> exists e :: e in entries && e.0 == p.0
    ensures QueryPairs(entries) == [] <==> forall e :: e in entries ==> EntryPairs(e) == []
    decreases |entries|
  {
    if entries != [] {
      QueryPairsFromEntries(entries[1..]);
      assert forall e :: e in entries[1..] ==> e in entries;
      assert forall e :: e in entries ==> e == entries[0] || e in entries[1..];
    }
  }

  /** Building the pairs of two lists of entries one after the other gives the pairs of the joined list. */
  lemma {:induction false} QueryPairsAppend(a: seq<Entry>, b: seq<Entry>)
    ensures QueryPairs(a + b) == QueryPairs(a) + QueryPairs(b)
    decreases |a|
  {
    if a == [] {
      assert a + b == b;
    } else {
      var ab := a + b;
      assert ab[0] == a[0];
      assert ab[1..] == a[1..] + b;
      QueryPairsAppend(a[1..], b);
    }
  }

  /** One parameter as `key=value`, both encoded. */
  function PairText(p: (string, string), encode: string -> string): (t: string)
    ensures |t| > 0
    ensures t == encode(p.0) + "=" + encode(p.1)
  {
    encode(p.0) + "=" + encode(p.1)
  }

  function PairTexts(pairs: seq<(string, string)>, encode: string -> string): (ts: seq<string>)
    ensures |ts| == |pairs|
    ensures forall i :: 0 <= i < |pairs| ==> ts[i] == PairText(pairs[i], encode)
  {
    if pairs == [] then [] else [PairText(pairs[0], encode)] + PairTexts(pairs[1..], encode)
  }

  /** The query string: the encoded pairs joined by "&". */
  function QueryString(pairs: seq<(string, string)>, encode: string -> string): (q: string)
    ensures q == "" <==> pairs == []
    ensures q == Join(PairTexts(pairs, encode), "&")
    ensures |pairs| == 1 ==> q == PairText(pairs[0], encode)
  {
    var ts := PairTexts(pairs, encode);
    JoinStartsWithFirst(ts, "&");
    Join(ts, "&")
  }

  lemma JoinStartsWithFirst(xs: seq<string>, sep: string)
    ensures xs != [] ==> |Join(xs, sep)| >= |xs[0]|
  {
  }

  /** The query string of two runs of parameters is theirs joined by "&". */
  lemma QueryStringAppend(a: seq<(string, string)>, b: seq<(string, string)>, encode: string -> string)
    requires a != [] && b != []
    ensures QueryString(a + b, encode) == QueryString(a, encode) + "&" + QueryString(b, encode)
  {
    assert PairTexts(a + b, encode) == PairTexts(a, encode) + PairTexts(b, encode);
    JoinAppend(PairTexts(a, encode), PairTexts(b, encode), "&");
  }

  const ListingsPath := "/listings"

  /**
   * The URL fetched for a query (None when the page passes no query object):
   * the bare path when no entry has a value, the path and query string otherwise.
   */
  function ListingsEndpoint(params: Option<seq<Entry>>, encode: string -> string): (url: string)
    ensures url == ListingsPath <==> params.None? || QueryPairs(params.value) == []
    ensures url != ListingsPath ==>
      url == ListingsPath + "?" + QueryString(QueryPairs(params.value), encode)
  {
    var pairs := if params.None? then [] else QueryPairs(params.value);
    var q := QueryString(pairs, encode);
    if q != "" then
      assert |ListingsPath + "?" + q| > |ListingsPath|;
      ListingsPath + "?" + q
    else ListingsPath
  }

  /** Entries with no value leave the URL as it would be without them. */
  lemma AbsentEntriesIgnored(params: seq<Entry>, key: string, encode: string -> string)
    ensures ListingsEndpoint(Some(params + [(key, Undefined)]), encode) == ListingsEndpoint(Some(params), encode)
    ensures ListingsEndpoint(Some(params + [(key, Null)]), encode) == ListingsEndpoint(Some(params), encode)
  {
    QueryPairsAppend(params, [(key, Undefined)]);
    QueryPairsAppend(params, [(key, Null)]);
    assert QueryPairs([(key, Undefined)]) == [];
    assert QueryPairs([(key, Null)]) == [];
    assert QueryPairs(params) + [] == QueryPairs(params);
  }

  /** An array value repeats its key once per element, in order. */
  lemma ArrayRepeatsKey(key: string, items: seq<string>)
    ensures QueryPairs([(key, Many(items))]) == seq(|items|, i requires 0 <= i < |items| => (key, items[i]))
  {
    assert [(key, Many(items))][1..] == [];
  }
}

=== FILE: listings_controller.dfy ===
/**
 * The listings routes: which guards run, in which order, and which service
 * operation each route reaches with which arguments. Authentication is the JWT
 * guard's outcome: the verified subject of the bearer token (None when the
 * token is missing, malformed or expired) resolved through `ValidateUser`.
 * Guards run before the body is validated.
 */
module ListingsController {
  import opened Wrappers
  import opened Errors
  import opened ListingTypes
  import opened AuthTypes
  import opened ListingDtos
  import opened Guards
  import AS = AuthService
  import LS = ListingsService

  const NotAuthorized := ApiError(Unauthorized, "Unauthorized")

  /** The JWT guard: the token's subject must be an existing ACTIVE user. */
  function Authenticate(users: AS.Users, subject: Option<string>): (r: Result<PublicUser, ApiError>)
    ensures r.Err? ==> r.error == NotAuthorized
    ensures subject.None? ==> r.Err?
    ensures r.Ok? ==> subject.Some? && r.value.id == subject.value && r.value.status == AccountActive
                      && exists j :: 0 <= j < |users| && r.value == AS.MapUserToType(users[j])
    ensures subject.Some? && AS.WellFormedUsers(users) ==>
      (r.Ok? <==> exists j :: 0 <= j < |users| && users[j].id == subject.value && users[j].status == AccountActive)
  {
    if subject.None? then Err(NotAuthorized)
    else match AS.ValidateUser(users, subject.value)
      case None => Err(NotAuthorized)
      case Some(u) => Ok(u)
  }

  /** POST /listings: the owner of the new listing is the authenticated caller. */
  function CreateRoute(s: LS.Store, users: AS.Users, subject: Option<string>, raw: RawCreate, newId: string)
    : (r: Result<(LS.Store, LS.ListingView), ApiError>)
    requires newId !in s.listings
    ensures Authenticate(users, subject).Err? ==> r == Err(NotAuthorized)
    ensures Authenticate(users, subject).Ok? && ValidateCreate(raw).Err? ==> r == Err(ValidationFailed)
    ensures r.Ok? <==> Authenticate(users, subject).Ok? && ValidateCreate(raw).Ok?
    ensures r.Ok? ==> && r.value.1.row.ownerId == subject.value
                      && r.value.1.row.status == Draft
                      && r.value.0.listings.Keys == s.listings.Keys + {newId}
    ensures r.Ok? ==> r.value == LS.Create(s, subject.value, ValidateCreate(raw).value, newId)
    ensures r.Ok? && LS.Valid(s) ==> LS.Valid(r.value.0)
  {
    match Authenticate(users, subject)
    case Err(e) => Err(e)
    case Ok(user) =>
      match ValidateCreate(raw)
      case Err(e) => Err(e)
      case Ok(dto) => Ok(LS.Create(s, user.id, dto, newId))
  }

  /** GET /listings: public; the query string is validated before the service runs. */
  function FindAllRoute(s: LS.Store, raw: RawQuery, order: seq<string>): (r: Result<LS.Page, ApiError>)
    requires LS.Valid(s) && LS.IsOrdering(order, s.listings)
    ensures r.Err? <==> ValidateQuery(raw).Err?
    ensures r.Err? ==> r.error == ValidationFailed
    ensures r.Ok? ==> && |r.value.data| <= ValidateQuery(raw).value.limit
                      && (raw.status.None? ==> forall v :: v in r.value.data ==> v.row.status == Active)
    ensures r.Ok? ==> r.value == LS.FindAll(s, ValidateQuery(raw).value, order)
  {
    match ValidateQuery(raw)
    case Err(e) => Err(e)
    case Ok(q) => Ok(LS.FindAll(s, q, order))
  }

  /**
   * PATCH /listings/:id. The ownership guard runs first and lets an ADMIN
   * through; the service then checks ownership again, without regard to role.
   */
  function UpdateRoute(s: LS.Store, users: AS.Users, subject: Option<string>, id: string, dto: UpdateListingDto)
    : (r: Result<(LS.Store, LS.ListingView), ApiError>)
    requires LS.Valid(s)
    ensures Authenticate(users, subject).Err? ==> r == Err(NotAuthorized)
    ensures r.Ok? <==> && Authenticate(users, subject).Ok?
                       && id in s.listings && s.listings[id].ownerId == subject.value
    ensures r.Ok? ==> && r.value.0.listings == s.listings[id := LS.Merge(s.listings[id], dto)]
                      && LS.Valid(r.value.0)
    ensures r.Ok? ==> r == LS.Update(s, id, subject.value, dto)
  {
    match Authenticate(users, subject)
    case Err(e) => Err(e)
    case Ok(user) =>
      match OwnershipGuard(Some(user), id, s.listings)
      case Fail(e) => Err(e)
      case Pass => LS.Update(s, id, user.id, dto)
  }

  /**
   * DELETE /listings/:id. The route answers 204 No Content, so the service's
   * message is not part of the response and the result is the new store only.
   */
  function RemoveRoute(s: LS.Store, users: AS.Users, subject: Option<string>, id: string): (r: Result<LS.Store, ApiError>)
    requires LS.Valid(s)
    ensures Authenticate(users, subject).Err? ==> r == Err(NotAuthorized)
    ensures r.Ok? <==> && Authenticate(users, subject).Ok?
                       && id in s.listings && s.listings[id].ownerId == subject.value
    ensures r.Ok? ==> r.value.listings == s.listings - {id} && LS.Valid(r.value)
    ensures r.Ok? ==> r.value == LS.Remove(s, id, subject.value).value.0
  {
    match Authenticate(users, subject)
    case Err(e) => Err(e)
    case Ok(user) =>
      match OwnershipGuard(Some(user), id, s.listings)
      case Fail(e) => Err(e)
      case Pass =>
        match LS.Remove(s, id, user.id)
        case Err(e) => Err(e)
        case Ok((s', _)) => Ok(s')
  }

  /** The update of an ADMIN who does not own the listing passes the guard and is refused by the service. */
  lemma AdminNonOwnerCannotUpdate(s: LS.Store, users: AS.Users, subject: Option<string>, id: string, dto: UpdateListingDto)
    requires LS.Valid(s)
    requires Authenticate(users, subject).Ok? && Authenticate(users, subject).value.role == Admin
    requires id in s.listings && s.listings[id].ownerId != subject.value
    ensures OwnershipGuard(Some(Authenticate(users, subject).value), id, s.listings) == Pass
    ensures UpdateRoute(s, users, subject, id, dto) == Err(LS.UpdateForbidden)
  {
  }

  /** Likewise for deletion. */
  lemma AdminNonOwnerCannotRemove(s: LS.Store, users: AS.Users, subject: Option<string>, id: string)
    requires LS.Valid(s)
    requires Authenticate(users, subject).Ok? && Authenticate(users, subject).value.role == Admin
    requires id in s.listings && s.listings[id].ownerId != subject.value
    ensures OwnershipGuard(Some(Authenticate(users, subject).value), id, s.listings) == Pass
    ensures RemoveRoute(s, users, subject, id) == Err(LS.DeleteForbidden)
  {
  }

  /**
   * A user who is not the owner and not an ADMIN is stopped by the guard, with
   * the guard's message rather than the service's.
   */
  lemma NonOwnerStoppedByGuard(s: LS.Store, users: AS.Users, subject: Option<string>, id: string, dto: UpdateListingDto)
    requires LS.Valid(s)
    requires Authenticate(users, subject).Ok? && Authenticate(users, subject).value.role != Admin
    requires id in s.listings && s.listings[id].ownerId != subject.value
    ensures UpdateRoute(s, users, subject, id, dto) == Err(NotListingOwner)
    ensures RemoveRoute(s, users, subject, id) == Err(NotListingOwner)
  {
  }

  const StatusRejected := ApiError(InternalError, "Internal server error")

  /**
   * The status a PATCH /listings/:id/status body asks for. A left-out field
   * leaves the column alone (Some(None)); an explicit null or a string that
   * is not a listing status is refused by the database (None).
   */
  function RequestedStatus(raw: FieldPatch<string>): (r: Option<Option<ListingStatus>>)
    ensures raw.Omitted? ==> r == Some(None)
    ensures raw.ExplicitNull? ==> r.None?
    ensures raw.Supplied? ==> (r.Some? <==> ParseStatus(raw.value).Some?)
    ensures raw.Supplied? && r.Some? ==> r.value.Some? && StatusName(r.value.value) == raw.value
  {
    match raw
    case Omitted => Some(None)
    case ExplicitNull => None
    case Supplied(v) => if ParseStatus(v).Some? then Some(ParseStatus(v)) else None
  }

  /**
   * PATCH /listings/:id/status, for ADMINs only. The status is read from the
   * body without validation: a null or a value that is not a listing status
   * is refused by the database once the listing is found, which surfaces as
   * a server error.
   */
  function UpdateStatusRoute(s: LS.Store, users: AS.Users, subject: Option<string>, id: string,
                             rawStatus: FieldPatch<string>, now: int)
    : (r: Result<(LS.Store, LS.ListingView), ApiError>)
    requires LS.Valid(s)
    ensures Authenticate(users, subject).Err? ==> r == Err(NotAuthorized)
    ensures Authenticate(users, subject).Ok? && Authenticate(users, subject).value.role != Admin
            ==> r == Err(RoleDenied([Admin]))
    ensures r.Ok? <==> && Authenticate(users, subject).Ok? && Authenticate(users, subject).value.role == Admin
                       && id in s.listings
                       && (rawStatus.Omitted? || (rawStatus.Supplied? && ParseStatus(rawStatus.value).Some?))
    ensures && Authenticate(users, subject).Ok? && Authenticate(users, subject).value.role == Admin
            && id in s.listings && rawStatus.ExplicitNull?
            ==> r == Err(StatusRejected)
    ensures r.Ok? ==> var st := RequestedStatus(rawStatus).value;
      && r.value.0.listings == s.listings[id := LS.ChangeStatus(s.listings[id], st, now)]
      && r == LS.UpdateStatus(s, id, st, now)
  {
    match Authenticate(users, subject)
    case Err(e) => Err(e)
    case Ok(user) =>
      match RolesGuard(Some([Admin]), Some(user))
      case Fail(e) => Err(e)
      case Pass =>
        if id !in s.listings then Err(LS.ListingNotFound)
        else match RequestedStatus(rawStatus)
          case None => Err(StatusRejected)
          case Some(st) => LS.UpdateStatus(s, id, st, now)
  }

  /** Only an ADMIN can change a status, whoever owns the listing. */
  lemma StatusChangeNeedsAdmin(s: LS.Store, users: AS.Users, subject: Option<string>, id: string,
                               rawStatus: FieldPatch<string>, now: int)
    requires LS.Valid(s)
    requires UpdateStatusRoute(s, users, subject, id, rawStatus, now).Ok?
    ensures subject.Some? && exists j :: 0 <= j < |users| && users[j].id == subject.value
                                        && users[j].role == Admin && users[j].status == AccountActive
  {
    var u := Authenticate(users, subject).value;
    var j :| 0 <= j < |users| && u == AS.MapUserToType(users[j]);
    assert users[j].id == subject.value && users[j].role == Admin;
  }

  /**
   * The insert of an image whose body had no `url`: the column is required, so
   * the database client throws and the request ends in a server error.
   */
  const ImageUrlMissing := ApiError(InternalError, "Internal server error")

  /**
   * POST /listings/:id/images: any authenticated user may attach an image to
   * any listing. The url is taken from the body unchecked, and None when the
   * body has none.
   */
  function UploadImageRoute(s: LS.Store, users: AS.Users, subject: Option<string>, listingId: string,
                            url: Option<string>, order: int, newImageId: string)
    : (r: Result<(LS.Store, LS.ListingImage), ApiError>)
    requires LS.Valid(s) && newImageId !in s.images
    ensures Authenticate(users, subject).Err? ==> r == Err(NotAuthorized)
    ensures Authenticate(users, subject).Ok? && listingId !in s.listings ==> r == Err(LS.ListingNotFound)
    ensures Authenticate(users, subject).Ok? && listingId in s.listings && url.None? ==> r == Err(ImageUrlMissing)
    ensures r.Ok? <==> Authenticate(users, subject).Ok? && listingId in s.listings && url.Some?
    ensures r.Ok? ==> r == LS.UploadImage(s, listingId, url.value, order, newImageId)
    ensures r.Ok? ==> && r.value.1.listingId == listingId && r.value.1.url == url.value && r.value.1.order == order
                      && r.value.0.images == s.images[newImageId := r.value.1]
                      && r.value.0.listings == s.listings
  {
    match Authenticate(users, subject)
    case Err(e) => Err(e)
    case Ok(_) =>
      if listingId !in s.listings then Err(LS.ListingNotFound)
      else if url.None? then Err(ImageUrlMissing)
      else LS.UploadImage(s, listingId, url.value, order, newImageId)
  }

  /** The upload succeeds for a caller who does not own the listing. */
  lemma UploadIgnoresOwnership(s: LS.Store, users: AS.Users, subject: Option<string>, listingId: string,
                               url: string, order: int, newImageId: string)
    requires LS.Valid(s) && newImageId !in s.images
    requires Authenticate(users, subject).Ok? && Authenticate(users, subject).value.role != Admin
    requires listingId in s.listings && s.listings[listingId].ownerId != subject.value
    ensures UploadImageRoute(s, users, subject, listingId, Some(url), order, newImageId).Ok?
  {
  }

  /** DELETE /listings/images/:imageId: 204 No Content on success. */
  function DeleteImageRoute(s: LS.Store, users: AS.Users, subject: Option<string>, imageId: string)
    : (r: Result<LS.Store, ApiError>)
    requires LS.Valid(s)
    ensures Authenticate(users, subject).Err? ==> r == Err(NotAuthorized)
    ensures r.Ok? <==> && Authenticate(users, subject).Ok? && imageId in s.images
                       && s.listings[s.images[imageId].listingId].ownerId == subject.value
    ensures r.Ok? ==> r.value.images.Keys == s.images.Keys - {imageId} && r.value.listings == s.listings
    ensures r.Ok? ==> r.value.images == s.images - {imageId}
    ensures r.Ok? ==> r.value == LS.DeleteImage(s, imageId, subject.value).value.0
  {
    match Authenticate(users, subject)
    case Err(e) => Err(e)
    case Ok(user) =>
      match LS.DeleteImage(s, imageId, user.id)
      case Err(e) => Err(e)
      case Ok((s', _)) => Ok(s')
  }

  /** A suspended or unverified account is refused on every authenticated route. */
  lemma InactiveUserRefused(users: AS.Users, id: string)
    requires AS.WellFormedUsers(users)
    requires exists j :: 0 <= j < |users| && users[j].id == id && users[j].status != AccountActive
    ensures Authenticate(users, Some(id)) == Err(NotAuthorized)
  {
  }
}

=== FILE: listings_service.dfy ===
/**
 * The listing lifecycle and query model of the listings service, over a store
 * of two tables held as finite maps. Time (`now`) and freshly generated ids are
 * parameters; the database's ORDER BY is a parameter of `FindAll` (`order`).
 */
module ListingsService {
  import opened Wrappers
  import opened Errors
  import opened ListingTypes
  import opened StoredJson
  import opened ListingDtos

  /** A row of the listings table. `title`, `description` and `features` hold serialized text. */
  datatype ListingRow = ListingRow(
    id: string, ownerId: string,
    propertyType: PropertyType, dealType: DealType, status: ListingStatus,
    title: string, description: string,
    city: string, district: Option<string>, address: Option<string>,
    latitude: Option<real>, longitude: Option<real>,
    price: real, currency: string,
    area: Option<real>,
    rooms: Option<int>, bedrooms: Option<int>, bathrooms: Option<int>,
    floor: Option<int>, totalFloors: Option<int>,
    features: Option<string>,
    viewCount: nat, favoriteCount: nat,
    publishedAt: Option<int>)

  /** A row of the listing images table. */
  datatype ListingImage = ListingImage(
    id: string, listingId: string, url: string,
    thumbnailUrl: Option<string>, caption: Option<string>, order: int)

  datatype Store = Store(listings: map<string, ListingRow>, images: map<string, ListingImage>)

  /**
   * A listing as returned to clients: every column of `row` as stored, except
   * that the three serialized columns are replaced by their parsed values
   * (null when the column is empty).
   */
  datatype ListingView = ListingView(
    row: ListingRow,
    title: Option<LocalizedText>, description: Option<LocalizedText>, features: Option<Features>)

  const DefaultCurrency := "UZS"
  const ListingNotFound := ApiError(NotFound, "Listing not found")
  const ImageNotFound := ApiError(NotFound, "Image not found")
  const UpdateForbidden := ApiError(Forbidden, "You do not have permission to update this listing")
  const DeleteForbidden := ApiError(Forbidden, "You do not have permission to delete this listing")
  const ImageDeleteForbidden := ApiError(Forbidden, "You do not have permission to delete this image")
  const ParseFailure := ApiError(InternalError, "Internal server error")

  // ----------------------------------------------------------------------------
  // Reading the serialized columns
  // ----------------------------------------------------------------------------

  /** A stored text column is empty (read back as null) or parses. */
  predicate TextColumnParses(s: string) {
    s == "" || DecodeLocalized(s).Some?
  }

  predicate FeaturesColumnParses(f: Option<string>) {
    f.None? || f.value == "" || DecodeFeatures(f.value).Some?
  }

  predicate RowParses(row: ListingRow) {
    TextColumnParses(row.title) && TextColumnParses(row.description) && FeaturesColumnParses(row.features)
  }

  function ParseText(s: string): Option<LocalizedText>
    requires TextColumnParses(s)
  {
    if s == "" then None else DecodeLocalized(s)
  }

  function ParseFeatures(f: Option<string>): Option<Features>
    requires FeaturesColumnParses(f)
  {
    if f.None? || f.value == "" then None else DecodeFeatures(f.value)
  }

  /**
   * The read-side conversion of a row. A column that does not parse makes the
   * request fail with a server error, as an uncaught parse exception does.
   */
  function FormatListing(row: ListingRow): (r: Result<ListingView, ApiError>)
    ensures r.Ok? <==> RowParses(row)
    ensures r.Ok? ==> r.value.row == row
    ensures r.Ok? ==> (r.value.title.None? <==> row.title == "")
    ensures r.Ok? ==> (r.value.features.None? <==> (row.features.None? || row.features.value == ""))
    ensures r.Err? ==> r.error == ParseFailure
  {
    if RowParses(row)
    then Ok(ListingView(row, ParseText(row.title), ParseText(row.description), ParseFeatures(row.features)))
    else Err(ParseFailure)
  }

  /**
   * The store invariant every operation keeps: keys are the rows' ids, every
   * serialized column parses, and every image belongs to a listing that exists.
   */
  predicate Valid(s: Store) {
    && (forall id :: id in s.listings ==> s.listings[id].id == id && RowParses(s.listings[id]))
    && (forall i :: i in s.images ==> s.images[i].id == i && s.images[i].listingId in s.listings)
  }

  function View(row: ListingRow): (v: ListingView)
    requires RowParses(row)
    ensures FormatListing(row) == Ok(v)
  {
    FormatListing(row).value
  }

  // ----------------------------------------------------------------------------
  // create
  // ----------------------------------------------------------------------------

  function NewRow(id: string, ownerId: string, dto: CreateListingDto): ListingRow
  {
    ListingRow(
      id, ownerId, dto.propertyType, dto.dealType, Draft,
      EncodeLocalized(dto.title), EncodeLocalized(dto.description),
      dto.city, dto.district, dto.address, dto.latitude, dto.longitude,
      dto.price, if Truthy(dto.currency) then dto.currency.value else DefaultCurrency,
      dto.area, dto.rooms, dto.bedrooms, dto.bathrooms, dto.floor, dto.totalFloors,
      if dto.features.Some? then Some(EncodeFeatures(dto.features.value)) else None,
      0, 0, None)
  }

  /**
   * Inserts a listing owned by `ownerId`. The new listing is a DRAFT whatever
   * the caller wanted, and reading it back gives the texts and features written.
   */
  function Create(s: Store, ownerId: string, dto: CreateListingDto, newId: string): (r: (Store, ListingView))
    requires newId !in s.listings
    ensures newId in r.0.listings && r.0.listings.Keys == s.listings.Keys + {newId}
    ensures forall id :: id in s.listings ==> r.0.listings[id] == s.listings[id]
    ensures r.0.images == s.images
    ensures r.1.row == r.0.listings[newId]
    ensures r.1.row.ownerId == ownerId && r.1.row.status == Draft && r.1.row.publishedAt.None?
    ensures r.1.row.currency == (if dto.currency.Some? && dto.currency.value != "" then dto.currency.value else "UZS")
    ensures r.1.row.features.None? <==> dto.features.None?
    ensures var row := r.1.row;
      && row.propertyType == dto.propertyType && row.dealType == dto.dealType
      && row.city == dto.city && row.district == dto.district && row.address == dto.address
      && row.latitude == dto.latitude && row.longitude == dto.longitude && row.price == dto.price
      && row.area == dto.area && row.rooms == dto.rooms && row.bedrooms == dto.bedrooms
      && row.bathrooms == dto.bathrooms && row.floor == dto.floor && row.totalFloors == dto.totalFloors
      && row.id == newId && row.viewCount == 0 && row.favoriteCount == 0
    ensures r.1.title == Some(dto.title) && r.1.description == Some(dto.description)
    ensures r.1.features == dto.features
    ensures Valid(s) ==> Valid(r.0)
  {
    var row := NewRow(newId, ownerId, dto);
    DecodeEncodeLocalized(dto.title);
    DecodeEncodeLocalized(dto.description);
    if dto.features.Some? then DecodeEncodeFeatures(dto.features.value); (Store(s.listings[newId := row], s.images), View(row))
    else (Store(s.listings[newId := row], s.images), View(row))
  }

  // ----------------------------------------------------------------------------
  // findAll
  // ----------------------------------------------------------------------------

  /** An optional inclusive bound on a column that is always present. */
  predicate WithinReal(x: real, lo: Option<real>, hi: Option<real>) {
    (lo.None? || lo.value <= x) && (hi.None? || x <= hi.value)
  }

  /**
   * An inclusive range on a nullable column. When neither bound is given the
   * column is not constrained at all; when one is, a null value never matches.
   */
  predicate InRangeReal(x: Option<real>, lo: Option<real>, hi: Option<real>) {
    (lo.None? && hi.None?) || (x.Some? && WithinReal(x.value, lo, hi))
  }

  predicate InRangeInt(x: Option<int>, lo: Option<int>, hi: Option<int>) {
    (lo.None? && hi.None?) || (x.Some? && (lo.None? || lo.value <= x.value) && (hi.None? || x.value <= hi.value))
  }

  /** The status a query selects: the one asked for, ACTIVE when none is. */
  function StatusSelected(q: ListingQuery): ListingStatus {
    q.status.GetOr(Active)
  }

  /**
   * The conjunctive filter of a query. The string filters are applied only when
   * truthy, so an empty `city` or `district` or `ownerId` filters nothing.
   */
  predicate Matches(row: ListingRow, q: ListingQuery) {
    && row.status == StatusSelected(q)
    && (q.propertyType.None? || row.propertyType == q.propertyType.value)
    && (q.dealType.None? || row.dealType == q.dealType.value)
    && (!Truthy(q.city) || row.city == q.city.value)
    && (!Truthy(q.district) || row.district == q.district)
    && (!Truthy(q.ownerId) || row.ownerId == q.ownerId.value)
    && WithinReal(row.price, q.minPrice, q.maxPrice)
    && InRangeInt(row.rooms, q.minRooms, q.maxRooms)
    && InRangeReal(row.area, q.minArea, q.maxArea)
  }

  /** `order` lists every listing id once: the result of the database's ORDER BY. */
  predicate IsOrdering(order: seq<string>, listings: map<string, ListingRow>) {
    && (forall i :: 0 <= i < |order| ==> order[i] in listings)
    && (forall id :: id in listings ==> id in order)
    && (forall i, j :: 0 <= i < j < |order| ==> order[i] != order[j])
  }

  /**
   * The positions in `order`, from `from` on, whose rows match `q`: exactly the
   * matching positions, in increasing order.
   */
  function MatchingPositions(order: seq<string>, listings: map<string, ListingRow>, q: ListingQuery, from: nat)
    : (p: seq<nat>)
    requires from <= |order|
    requires forall i :: 0 <= i < |order| ==> order[i] in listings
    ensures |p| <= |order| - from
    ensures forall k :: 0 <= k < |p| ==> from <= p[k] < |order|
    ensures forall k, l :: 0 <= k < l < |p| ==> p[k] < p[l]
    ensures forall i :: from <= i < |order| ==> (i in p <==> Matches(listings[order[i]], q))
    decreases |order| - from
  {
    if from == |order| then []
    else
      var rest := MatchingPositions(order, listings, q, from + 1);
      if Matches(listings[order[from]], q) then [from] + rest else rest
  }

  /**
   * The rows matching `q`, in the order given: the rows at the matching
   * positions of `order`, each once.
   */
  function MatchingRows(order: seq<string>, listings: map<string, ListingRow>, q: ListingQuery): (r: seq<ListingRow>)
    requires forall i :: 0 <= i < |order| ==> order[i] in listings
    ensures |r| <= |order|
    ensures var p := MatchingPositions(order, listings, q, 0);
      |r| == |p| && forall k :: 0 <= k < |r| ==> r[k] == listings[order[p[k]]]
    ensures forall x :: x in r ==> Matches(x, q)
    ensures forall i :: 0 <= i < |order| && Matches(listings[order[i]], q) ==> listings[order[i]] in r
    ensures forall x :: x in r ==> exists i :: 0 <= i < |order| && listings[order[i]] == x
  {
    var p := MatchingPositions(order, listings, q, 0);
    var r := seq(|p|, k requires 0 <= k < |p| => listings[order[p[k]]]);
    forall i | 0 <= i < |order| && Matches(listings[order[i]], q)
      ensures listings[order[i]] in r
    {
      var k :| 0 <= k < |p| && p[k] == i;
      assert r[k] == listings[order[i]];
    }
    forall x | x in r
      ensures Matches(x, q) && exists i :: 0 <= i < |order| && listings[order[i]] == x
    {
      var k :| 0 <= k < |r| && r[k] == x;
      assert p[k] in p;
      assert listings[order[p[k]]] == x;
    }
    r
  }

  /** The ids that match `q` among the ids of `order` from `from` on. */
  function MatchingIdsFrom(order: seq<string>, listings: map<string, ListingRow>, q: ListingQuery, from: nat): set<string>
    requires from <= |order|
  {
    set id | id in order[from..] && id in listings && Matches(listings[id], q)
  }

  /** When `order` lists each id once, there are as many matching positions as matching ids. */
  lemma {:induction false} MatchingPositionsCount(order: seq<string>, listings: map<string, ListingRow>, q: ListingQuery, from: nat)
    requires from <= |order|
    requires forall i :: 0 <= i < |order| ==> order[i] in listings
    requires forall i, j :: 0 <= i < j < |order| ==> order[i] != order[j]
    ensures |MatchingPositions(order, listings, q, from)| == |MatchingIdsFrom(order, listings, q, from)|
    decreases |order| - from
  {
    if from == |order| {
      assert order[from..] == [];
      assert MatchingIdsFrom(order, listings, q, from) == {};
    } else {
      MatchingPositionsCount(order, listings, q, from + 1);
      var x := order[from];
      var a := MatchingIdsFrom(order, listings, q, from);
      var b := MatchingIdsFrom(order, listings, q, from + 1);
      assert order[from..] == [x] + order[from + 1..];
      assert x !in order[from + 1..] by {
        assert forall j :: from + 1 <= j < |order| ==> order[j] != x;
      }
      if Matches(listings[x], q) {
        assert a == b + {x};
      } else {
        assert a == b;
      }
    }
  }

  /** The ceiling of `total / limit`. */
  function PageCount(total: nat, limit: nat): (n: nat)
    requires limit > 0
    ensures (n - 1) * limit < total <= n * limit || (total == 0 && n == 0)
  {
    (total + limit - 1) / limit
  }

  datatype PageMeta = PageMeta(total: nat, page: int, limit: int, totalPages: nat)
  datatype Page = Page(data: seq<ListingView>, meta: PageMeta)

  function Views(rows: seq<ListingRow>): (r: seq<ListingView>)
    requires forall x :: x in rows ==> RowParses(x)
    ensures |r| == |rows|
    ensures forall i :: 0 <= i < |rows| ==> FormatListing(rows[i]) == Ok(r[i])
  {
    if rows == [] then [] else [View(rows[0])] + Views(rows[1..])
  }

  /** The `limit` rows that follow the first `skip`, or fewer at the end. */
  function Window(all: seq<ListingRow>, skip: nat, limit: nat): (w: seq<ListingRow>)
    ensures |w| == if skip >= |all| then 0 else if |all| - skip < limit then |all| - skip else limit
    ensures forall i :: 0 <= i < |w| ==> skip + i < |all| && w[i] == all[skip + i]
    ensures forall x :: x in w ==> x in all
  {
    var lo := if skip < |all| then skip else |all|;
    var hi := if lo + limit < |all| then lo + limit else |all|;
    all[lo..hi]
  }

  /** The ids of the listings matching `q`. */
  function MatchingIds(listings: map<string, ListingRow>, q: ListingQuery): set<string> {
    set id | id in listings && Matches(listings[id], q)
  }

  /** When `order` lists every listing once, the matching rows are as many as the matching listings. */
  lemma MatchingTotal(order: seq<string>, listings: map<string, ListingRow>, q: ListingQuery)
    requires IsOrdering(order, listings)
    ensures |MatchingRows(order, listings, q)| == |MatchingIds(listings, q)|
  {
    MatchingPositionsCount(order, listings, q, 0);
    assert order[0..] == order;
    assert MatchingIdsFrom(order, listings, q, 0) == MatchingIds(listings, q);
  }

  /** The number of rows before page `page`: `(page - 1) * limit`. */
  function Offset(page: int, limit: int): (n: nat)
    requires page >= 1 && limit >= 1
    ensures n == (page - 1) * limit
  {
    MulMonotone(0, page - 1, limit);
    (page - 1) * limit
  }

  /** One page of the listings matching a validated query. */
  function FindAll(s: Store, q: ListingQuery, order: seq<string>): (r: Page)
    requires Valid(s) && ValidQuery(q) && IsOrdering(order, s.listings)
    ensures |r.data| <= q.limit
    ensures forall v :: v in r.data ==> Matches(v.row, q) && v.row in s.listings.Values
    ensures q.status.None? ==> forall v :: v in r.data ==> v.row.status == Active
    ensures q.status.Some? ==> forall v :: v in r.data ==> v.row.status == q.status.value
    ensures r.meta.page == q.page && r.meta.limit == q.limit
    ensures r.meta.total == |MatchingRows(order, s.listings, q)|
    ensures r.meta.total == |MatchingIds(s.listings, q)|
    ensures forall id :: id in s.listings && Matches(s.listings[id], q) ==> s.listings[id] in MatchingRows(order, s.listings, q)
    ensures r.meta.totalPages == PageCount(r.meta.total, q.limit)
    ensures |r.data| > 0 <==> q.page <= r.meta.totalPages
    // the page is the window of `limit` matching rows after the first (page - 1) * limit
    ensures var skip := Offset(q.page, q.limit);
      |r.data| == if skip >= r.meta.total then 0 else if r.meta.total - skip < q.limit then r.meta.total - skip else q.limit
    ensures forall i :: 0 <= i < |r.data| ==>
      Offset(q.page, q.limit) + i < r.meta.total
      && r.data[i].row == MatchingRows(order, s.listings, q)[Offset(q.page, q.limit) + i]
  {
    var all := MatchingRows(order, s.listings, q);
    MatchingTotal(order, s.listings, q);
    assert forall x :: x in all ==> x in s.listings.Values && RowParses(x);
    PageOf(all, q.page, q.limit)
  }

  /** The page `page` of `all`, converted for the client, with its counts. */
  function PageOf(all: seq<ListingRow>, page: int, limit: int): (r: Page)
    requires page >= 1 && limit >= 1
    requires forall x :: x in all ==> RowParses(x)
    ensures r.meta == PageMeta(|all|, page, limit, PageCount(|all|, limit))
    ensures |r.data| <= limit
    ensures |r.data| > 0 <==> page <= r.meta.totalPages
    ensures var skip := Offset(page, limit);
      |r.data| == if skip >= |all| then 0 else if |all| - skip < limit then |all| - skip else limit
    ensures forall i :: 0 <= i < |r.data| ==> Offset(page, limit) + i < |all| && r.data[i].row == all[Offset(page, limit) + i]
    ensures forall v :: v in r.data ==> v.row in all
  {
    var window := Window(all, Offset(page, limit), limit);
    var data := Views(window);
    assert forall i :: 0 <= i < |data| ==> data[i].row == window[i] by {
      forall i | 0 <= i < |data| ensures data[i].row == window[i] {
        assert FormatListing(window[i]) == Ok(data[i]);
      }
    }
    PageWithinCount(|all|, page, limit);
    Page(data, PageMeta(|all|, page, limit, PageCount(|all|, limit)))
  }

  /** A page has rows exactly when its number does not exceed the page count. */
  lemma PageWithinCount(total: nat, page: int, limit: int)
    requires page >= 1 && limit >= 1
    ensures Offset(page, limit) < total <==> page <= PageCount(total, limit)
  {
    var n := PageCount(total, limit);
    if page <= n {
      MulMonotone(page - 1, n - 1, limit);
    } else {
      MulMonotone(n, page - 1, limit);
    }
  }

  lemma MulMonotone(a: int, b: int, c: int)
    requires a <= b && c >= 0
    ensures a * c <= b * c
  {
    assert b * c - a * c == (b - a) * c;
  }

  // ----------------------------------------------------------------------------
  // findOne, update, remove
  // ----------------------------------------------------------------------------

  /** Reads one listing. (The view counter increment it also fires is not modelled.) */
  function FindOne(s: Store, id: string): (r: Result<ListingView, ApiError>)
    requires Valid(s)
    ensures r.Err? <==> id !in s.listings
    ensures r.Err? ==> r.error == ListingNotFound
    ensures r.Ok? ==> r.value.row == s.listings[id] && FormatListing(s.listings[id]) == r
  {
    if id !in s.listings then Err(ListingNotFound) else Ok(View(s.listings[id]))
  }

  function Pick<T>(supplied: Option<T>, current: T): T {
    if supplied.Some? then supplied.value else current
  }

  function PickOptional<T>(supplied: Option<T>, current: Option<T>): Option<T> {
    if supplied.Some? then supplied else current
  }

  /**
   * The partial merge of an update body into a row: each supplied field is
   * written, each absent one keeps its value, and the columns an update body
   * cannot name are never touched.
   */
  function Merge(row: ListingRow, dto: UpdateListingDto): (r: ListingRow)
    ensures r.id == row.id && r.ownerId == row.ownerId && r.status == row.status
    ensures r.publishedAt == row.publishedAt && r.viewCount == row.viewCount && r.favoriteCount == row.favoriteCount
    // required columns
    ensures dto.propertyType.Some? ==> r.propertyType == dto.propertyType.value
    ensures dto.propertyType.None? ==> r.propertyType == row.propertyType
    ensures dto.dealType.Some? ==> r.dealType == dto.dealType.value
    ensures dto.dealType.None? ==> r.dealType == row.dealType
    ensures dto.city.Some? ==> r.city == dto.city.value
    ensures dto.city.None? ==> r.city == row.city
    ensures dto.price.Some? ==> r.price == dto.price.value
    ensures dto.price.None? ==> r.price == row.price
    ensures dto.currency.Some? ==> r.currency == dto.currency.value
    ensures dto.currency.None? ==> r.currency == row.currency
    // serialized columns
    ensures dto.title.Some? ==> r.title == EncodeLocalized(dto.title.value)
    ensures dto.title.None? ==> r.title == row.title
    ensures dto.description.Some? ==> r.description == EncodeLocalized(dto.description.value)
    ensures dto.description.None? ==> r.description == row.description
    ensures dto.features.Some? ==> r.features == Some(EncodeFeatures(dto.features.value))
    ensures dto.features.None? ==> r.features == row.features
    // nullable columns
    ensures dto.district.Some? ==> r.district == dto.district
    ensures dto.district.None? ==> r.district == row.district
    ensures dto.address.Some? ==> r.address == dto.address
    ensures dto.address.None? ==> r.address == row.address
    ensures dto.latitude.Some? ==> r.latitude == dto.latitude
    ensures dto.latitude.None? ==> r.latitude == row.latitude
    ensures dto.longitude.Some? ==> r.longitude == dto.longitude
    ensures dto.longitude.None? ==> r.longitude == row.longitude
    ensures dto.area.Some? ==> r.area == dto.area
    ensures dto.area.None? ==> r.area == row.area
    ensures dto.rooms.Some? ==> r.rooms == dto.rooms
    ensures dto.rooms.None? ==> r.rooms == row.rooms
    ensures dto.bedrooms.Some? ==> r.bedrooms == dto.bedrooms
    ensures dto.bedrooms.None? ==> r.bedrooms == row.bedrooms
    ensures dto.bathrooms.Some? ==> r.bathrooms == dto.bathrooms
    ensures dto.bathrooms.None? ==> r.bathrooms == row.bathrooms
    ensures dto.floor.Some? ==> r.floor == dto.floor
    ensures dto.floor.None? ==> r.floor == row.floor
    ensures dto.totalFloors.Some? ==> r.totalFloors == dto.totalFloors
    ensures dto.totalFloors.None? ==> r.totalFloors == row.totalFloors
  {
    ListingRow(
      row.id, row.ownerId,
      Pick(dto.propertyType, row.propertyType), Pick(dto.dealType, row.dealType), row.status,
      if dto.title.Some? then EncodeLocalized(dto.title.value) else row.title,
      if dto.description.Some? then EncodeLocalized(dto.description.value) else row.description,
      Pick(dto.city, row.city), PickOptional(dto.district, row.district), PickOptional(dto.address, row.address),
      PickOptional(dto.latitude, row.latitude), PickOptional(dto.longitude, row.longitude),
      Pick(dto.price, row.price), Pick(dto.currency, row.currency),
      PickOptional(dto.area, row.area),
      PickOptional(dto.rooms, row.rooms), PickOptional(dto.bedrooms, row.bedrooms), PickOptional(dto.bathrooms, row.bathrooms),
      PickOptional(dto.floor, row.floor), PickOptional(dto.totalFloors, row.totalFloors),
      if dto.features.Some? then Some(EncodeFeatures(dto.features.value)) else row.features,
      row.viewCount, row.favoriteCount,
      row.publishedAt)
  }

  /** An update with no fields changes nothing. */
  lemma MergeEmptyIsIdentity(row: ListingRow)
    ensures Merge(row, EmptyUpdate) == row
  {
  }

  /** Applying the same update twice is the same as applying it once. */
  lemma MergeIdempotent(row: ListingRow, dto: UpdateListingDto)
    ensures Merge(Merge(row, dto), dto) == Merge(row, dto)
  {
  }

  /**
   * What a client reads back after an update: each supplied field has the
   * supplied value, and each absent field the value it had before.
   */
  lemma MergeReadBack(row: ListingRow, dto: UpdateListingDto)
    requires RowParses(row)
    ensures RowParses(Merge(row, dto))
    ensures var v, w := View(row), View(Merge(row, dto));
      && w.title == (if dto.title.Some? then dto.title else v.title)
      && w.description == (if dto.description.Some? then dto.description else v.description)
      && w.features == (if dto.features.Some? then dto.features else v.features)
      && w.row.city == Pick(dto.city, row.city)
      && w.row.price == Pick(dto.price, row.price)
      && w.row.district == PickOptional(dto.district, row.district)
  {
    if dto.title.Some? { DecodeEncodeLocalized(dto.title.value); }
    if dto.description.Some? { DecodeEncodeLocalized(dto.description.value); }
    if dto.features.Some? { DecodeEncodeFeatures(dto.features.value); }
  }

  /**
   * Updates a listing. Only the stored owner may; the requester's role is not
   * consulted. On failure the store is left as it was.
   */
  function Update(s: Store, id: string, requesterId: string, dto: UpdateListingDto): (r: Result<(Store, ListingView), ApiError>)
    requires Valid(s)
    ensures id !in s.listings ==> r == Err(ListingNotFound)
    ensures id in s.listings && s.listings[id].ownerId != requesterId ==> r == Err(UpdateForbidden)
    ensures r.Ok? <==> id in s.listings && s.listings[id].ownerId == requesterId
    ensures r.Ok? ==> && r.value.0.listings == s.listings[id := Merge(s.listings[id], dto)]
                      && r.value.0.images == s.images
                      && r.value.1.row == r.value.0.listings[id]
                      && Valid(r.value.0)
  {
    if id !in s.listings then Err(ListingNotFound)
    else if s.listings[id].ownerId != requesterId then Err(UpdateForbidden)
    else
      var row := Merge(s.listings[id], dto);
      MergeReadBack(s.listings[id], dto);
      Ok((Store(s.listings[id := row], s.images), View(row)))
  }

  /** The images left after a listing is deleted: the database removes its images with it. */
  function ImagesWithout(images: map<string, ListingImage>, listingId: string): (r: map<string, ListingImage>)
    ensures forall i :: i in r <==> i in images && images[i].listingId != listingId
    ensures forall i :: i in r ==> r[i] == images[i]
  {
    map i | i in images && images[i].listingId != listingId :: images[i]
  }

  const DeletedMessage := "Listing deleted successfully"

  /** Deletes a listing; only its stored owner may. */
  function Remove(s: Store, id: string, requesterId: string): (r: Result<(Store, string), ApiError>)
    requires Valid(s)
    ensures id !in s.listings ==> r == Err(ListingNotFound)
    ensures id in s.listings && s.listings[id].ownerId != requesterId ==> r == Err(DeleteForbidden)
    ensures r.Ok? <==> id in s.listings && s.listings[id].ownerId == requesterId
    ensures r.Ok? ==> && r.value.0.listings == s.listings - {id}
                      && (forall i :: i in r.value.0.images ==> r.value.0.images[i].listingId != id)
                      && (forall i :: i in s.images && s.images[i].listingId != id ==>
                            i in r.value.0.images && r.value.0.images[i] == s.images[i])
                      && Valid(r.value.0)
  {
    if id !in s.listings then Err(ListingNotFound)
    else if s.listings[id].ownerId != requesterId then Err(DeleteForbidden)
    else Ok((Store(s.listings - {id}, ImagesWithout(s.images, id)), DeletedMessage))
  }

  // ----------------------------------------------------------------------------
  // updateStatus
  // ----------------------------------------------------------------------------

  /**
   * The status change of one row. `status` is None when the request body has
   * no status field, in which case the status column is left as it is.
   * `publishedAt` is written only on a change to ACTIVE while it is still null.
   */
  function ChangeStatus(row: ListingRow, status: Option<ListingStatus>, now: int): (r: ListingRow)
    ensures r.status == status.GetOr(row.status)
    ensures row.publishedAt.Some? ==> r.publishedAt == row.publishedAt
    ensures row.publishedAt.None? ==> (r.publishedAt.Some? <==> status == Some(Active))
    ensures r.publishedAt.Some? && row.publishedAt.None? ==> r.publishedAt == Some(now)
    ensures r == row.(status := r.status, publishedAt := r.publishedAt)
  {
    row.(status := status.GetOr(row.status),
         publishedAt := if status == Some(Active) && row.publishedAt.None? then Some(now) else row.publishedAt)
  }

  /** Applies the status changes of `changes` in order, each with its own time. */
  function ChangeStatuses(row: ListingRow, changes: seq<(Option<ListingStatus>, int)>): ListingRow
    decreases |changes|
  {
    if changes == [] then row else ChangeStatuses(ChangeStatus(row, changes[0].0, changes[0].1), changes[1..])
  }

  /** Once set, `publishedAt` survives every later status change. */
  lemma {:induction false} PublishedAtWrittenOnce(row: ListingRow, changes: seq<(Option<ListingStatus>, int)>)
    requires row.publishedAt.Some?
    ensures ChangeStatuses(row, changes).publishedAt == row.publishedAt
    decreases |changes|
  {
    if changes != [] {
      PublishedAtWrittenOnce(ChangeStatus(row, changes[0].0, changes[0].1), changes[1..]);
    }
  }

  /**
   * Starting unpublished, a listing is published after a run of status changes
   * exactly when one of them was to ACTIVE, and the time recorded is that of
   * the first such change.
   */
  lemma {:induction false} PublishedAtIsFirstActivation(row: ListingRow, changes: seq<(Option<ListingStatus>, int)>)
    requires row.publishedAt.None?
    ensures var r := ChangeStatuses(row, changes);
      && (r.publishedAt.Some? <==> exists k :: 0 <= k < |changes| && changes[k].0 == Some(Active))
      && (forall k :: 0 <= k < |changes| && changes[k].0 == Some(Active)
                      && (forall j :: 0 <= j < k ==> changes[j].0 != Some(Active))
                      ==> r.publishedAt == Some(changes[k].1))
    decreases |changes|
  {
    if changes != [] {
      var next := ChangeStatus(row, changes[0].0, changes[0].1);
      var tail := changes[1..];
      assert forall k :: 1 <= k < |changes| ==> changes[k] == tail[k - 1];
      if changes[0].0 == Some(Active) {
        PublishedAtWrittenOnce(next, tail);
      } else {
        PublishedAtIsFirstActivation(next, tail);
        forall k | 0 <= k < |tail| && tail[k].0 == Some(Active)
          ensures changes[k + 1].0 == Some(Active)
        {
        }
      }
    }
  }

  /** Changes a listing's status. Who may call it is decided by the route's role guard. */
  function UpdateStatus(s: Store, id: string, status: Option<ListingStatus>, now: int): (r: Result<(Store, ListingView), ApiError>)
    requires Valid(s)
    ensures r.Err? <==> id !in s.listings
    ensures r.Err? ==> r.error == ListingNotFound
    ensures r.Ok? ==> && r.value.0.listings == s.listings[id := ChangeStatus(s.listings[id], status, now)]
                      && r.value.0.images == s.images
                      && r.value.1.row == r.value.0.listings[id]
                      && Valid(r.value.0)
  {
    if id !in s.listings then Err(ListingNotFound)
    else
      var row := ChangeStatus(s.listings[id], status, now);
      Ok((Store(s.listings[id := row], s.images), View(row)))
  }

  // ----------------------------------------------------------------------------
  // images
  // ----------------------------------------------------------------------------

  /** Attaches an image to an existing listing. Nobody's ownership is checked. */
  function UploadImage(s: Store, listingId: string, url: string, order: int, newImageId: string): (r: Result<(Store, ListingImage), ApiError>)
    requires Valid(s) && newImageId !in s.images
    ensures r.Err? <==> listingId !in s.listings
    ensures r.Err? ==> r.error == ListingNotFound
    ensures r.Ok? ==> && r.value.1 == ListingImage(newImageId, listingId, url, None, None, order)
                      && r.value.0.images == s.images[newImageId := r.value.1]
                      && r.value.0.listings == s.listings
                      && Valid(r.value.0)
  {
    if listingId !in s.listings then Err(ListingNotFound)
    else
      var image := ListingImage(newImageId, listingId, url, None, None, order);
      Ok((Store(s.listings, s.images[newImageId := image]), image))
  }

  const ImageDeletedMessage := "Image deleted successfully"

  /** Removes one image; only the owner of the image's listing may. */
  function DeleteImage(s: Store, imageId: string, requesterId: string): (r: Result<(Store, string), ApiError>)
    requires Valid(s)
    ensures imageId !in s.images ==> r == Err(ImageNotFound)
    ensures imageId in s.images && s.listings[s.images[imageId].listingId].ownerId != requesterId
            ==> r == Err(ImageDeleteForbidden)
    ensures r.Ok? <==> imageId in s.images && s.listings[s.images[imageId].listingId].ownerId == requesterId
    ensures r.Ok? ==> && r.value.0.images.Keys == s.images.Keys - {imageId}
                      && (forall i :: i in r.value.0.images ==> r.value.0.images[i] == s.images[i])
                      && r.value.0.listings == s.listings
                      && Valid(r.value.0)
  {
    if imageId !in s.images then Err(ImageNotFound)
    else if s.listings[s.images[imageId].listingId].ownerId != requesterId then Err(ImageDeleteForbidden)
    else Ok((Store(s.listings, s.images - {imageId}), ImageDeletedMessage))
  }
}

=== FILE: stored_json.dfy ===
/**
 * The text columns `title`, `description` and `features` hold a serialized
 * form of structured values, written on create/update and parsed back on every
 * read. JSON's concrete syntax is not modelled: a self-delimiting escape
 * encoding stands in for it, and the property the service relies on, that
 * parsing what was written gives back the written value, is proved here.
 */
module StoredJson {
  import opened Wrappers
  import opened ListingTypes

  const Terminator: char := ';'
  const Escape: char := '\\'

  /** One character as it is written: the terminator and the escape character are escaped. */
  function EscapeChar(c: char): (r: string)
    ensures |r| >= 1 && r[|r| - 1] == c
    ensures r[0] == Escape <==> |r| == 2
    ensures r[0] != Terminator
  {
    if c == Terminator || c == Escape then [Escape, c] else [c]
  }

  function EscapeText(s: string): string
  {
    if s == [] then [] else EscapeChar(s[0]) + EscapeText(s[1..])
  }

  /** A string written as its escaped characters followed by an unescaped terminator. */
  function EncodeString(s: string): string
  {
    EscapeText(s) + [Terminator]
  }

  /**
   * Reads one encoded string from the front of `t`, returning it and the rest of `t`.
   * Fails when `t` ends before an unescaped terminator.
   */
  function DecodeString(t: string): (r: Option<(string, string)>)
    ensures r.Some? ==> |r.value.1| < |t|
    decreases |t|
  {
    if |t| == 0 then None
    else if t[0] == Terminator then Some(([], t[1..]))
    else if t[0] == Escape then
      if |t| < 2 then None
      else match DecodeString(t[2..])
        case None => None
        case Some((s, rest)) => Some(([t[1]] + s, rest))
    else match DecodeString(t[1..])
      case None => None
      case Some((s, rest)) => Some(([t[0]] + s, rest))
  }

  lemma {:induction false} DecodeEncodeString(s: string, rest: string)
    ensures DecodeString(EncodeString(s) + rest) == Some((s, rest))
    decreases |s|
  {
    if s == [] {
      assert EncodeString(s) + rest == [Terminator] + rest;
    } else {
      var c := s[0];
      var tail := EncodeString(s[1..]) + rest;
      assert EncodeString(s) + rest == EscapeChar(c) + tail;
      DecodeEncodeString(s[1..], rest);
      if c == Terminator || c == Escape {
        var t := [Escape, c] + tail;
        assert t[0] == Escape && t[1] == c && t[2..] == tail;
        assert [c] + s[1..] == s;
      } else {
        var t := [c] + tail;
        assert t[0] == c && t[1..] == tail;
        assert [c] + s[1..] == s;
      }
    }
  }

  /** An optional string: "-" when absent, "+" and the string when present. */
  function EncodeOptional(o: Option<string>): string
  {
    match o
    case None => "-"
    case Some(s) => "+" + EncodeString(s)
  }

  function DecodeOptional(t: string): (r: Option<(Option<string>, string)>)
    ensures r.Some? ==> |r.value.1| < |t|
  {
    if |t| == 0 then None
    else if t[0] == '-' then Some((None, t[1..]))
    else if t[0] == '+' then
      match DecodeString(t[1..])
      case None => None
      case Some((s, rest)) => Some((Some(s), rest))
    else None
  }

  lemma DecodeEncodeOptional(o: Option<string>, rest: string)
    ensures DecodeOptional(EncodeOptional(o) + rest) == Some((o, rest))
  {
    match o
    case None =>
      assert (EncodeOptional(o) + rest)[1..] == rest;
    case Some(s) =>
      var t := EncodeOptional(o) + rest;
      assert t[1..] == EncodeString(s) + rest;
      DecodeEncodeString(s, rest);
  }

  /** The stored form of a localized text: its three languages in the order en, ru, uz. */
  function EncodeLocalized(t: LocalizedText): (r: string)
    ensures |r| > 0
  {
    EncodeOptional(t.en) + EncodeOptional(t.ru) + EncodeOptional(t.uz)
  }

  /** Parses a stored localized text; the whole column must be consumed. */
  function DecodeLocalized(s: string): Option<LocalizedText>
  {
    match DecodeOptional(s)
    case None => None
    case Some((en, r1)) =>
      match DecodeOptional(r1)
      case None => None
      case Some((ru, r2)) =>
        match DecodeOptional(r2)
        case None => None
        case Some((uz, r3)) =>
          if r3 == [] then Some(LocalizedText(en, ru, uz)) else None
  }

  lemma DecodeEncodeLocalized(t: LocalizedText)
    ensures DecodeLocalized(EncodeLocalized(t)) == Some(t)
  {
    var a, b, c := EncodeOptional(t.en), EncodeOptional(t.ru), EncodeOptional(t.uz);
    assert EncodeLocalized(t) == a + (b + c);
    DecodeEncodeOptional(t.en, b + c);
    assert b + c == b + c + [];
    DecodeEncodeOptional(t.ru, c);
    assert c == c + [];
    DecodeEncodeOptional(t.uz, []);
  }

  function EncodeEntries(f: Features): string
  {
    if f == [] then [] else EncodeString(f[0].0) + EncodeString(f[0].1) + EncodeEntries(f[1..])
  }

  function DecodeEntries(t: string): Option<Features>
    decreases |t|
  {
    if t == [] then Some([])
    else match DecodeString(t)
      case None => None
      case Some((k, r1)) =>
        match DecodeString(r1)
        case None => None
        case Some((v, r2)) =>
          match DecodeEntries(r2)
          case None => None
          case Some(more) => Some([(k, v)] + more)
  }

  lemma {:induction false} DecodeEncodeEntries(f: Features)
    ensures DecodeEntries(EncodeEntries(f)) == Some(f)
    decreases |f|
  {
    if f != [] {
      var (k, v) := f[0];
      var more := EncodeEntries(f[1..]);
      assert EncodeEntries(f) == EncodeString(k) + (EncodeString(v) + more);
      DecodeEncodeString(k, EncodeString(v) + more);
      DecodeEncodeString(v, more);
      DecodeEncodeEntries(f[1..]);
      assert [(k, v)] + f[1..] == f;
    }
  }

  /**
   * The stored form of a features object. It opens with "{" so that it is never
   * the empty (falsy) string, even for an object without entries.
   */
  function EncodeFeatures(f: Features): (r: string)
    ensures |r| > 0
  {
    "{" + EncodeEntries(f)
  }

  function DecodeFeatures(s: string): Option<Features>
  {
    if |s| > 0 && s[0] == '{' then DecodeEntries(s[1..]) else None
  }

  /** Parsing a stored features column gives back exactly the object written. */
  lemma DecodeEncodeFeatures(f: Features)
    ensures DecodeFeatures(EncodeFeatures(f)) == Some(f)
  {
    assert EncodeFeatures(f)[1..] == EncodeEntries(f);
    DecodeEncodeEntries(f);
  }
}

=== FILE: text.dfy ===
/** String operations the program takes from the JavaScript runtime. */
module Text {
  import opened Wrappers

  /** `pat` occurs in `s` starting at index `k`. */
  predicate OccursAt(s: string, pat: string, k: nat) {
    k + |pat| <= |s| && s[k..k + |pat|] == pat
  }

  predicate StartsWith(s: string, prefix: string) {
    OccursAt(s, prefix, 0)
  }

  /** The index of the first occurrence of `pat` in `s` at or after `from` (`indexOf`). */
  function IndexOfFrom(s: string, pat: string, from: nat): (r: Option<nat>)
    requires from <= |s|
    ensures r.Some? ==> from <= r.value && OccursAt(s, pat, r.value)
    ensures r.Some? ==> forall k :: from <= k < r.value ==> !OccursAt(s, pat, k)
    ensures r.None? ==> forall k :: from <= k <= |s| ==> !OccursAt(s, pat, k)
    decreases |s| - from
  {
    if OccursAt(s, pat, from) then Some(from)
    else if from == |s| then None
    else IndexOfFrom(s, pat, from + 1)
  }

  function IndexOf(s: string, pat: string): (r: Option<nat>)
    ensures r.Some? ==> OccursAt(s, pat, r.value) && forall k :: 0 <= k < r.value ==> !OccursAt(s, pat, k)
    ensures r.None? ==> forall k :: 0 <= k <= |s| ==> !OccursAt(s, pat, k)
  {
    IndexOfFrom(s, pat, 0)
  }

  /**
   * `s.replace(pat, replacement)` with a string pattern: only the first occurrence is
   * replaced, and `s` is returned unchanged when there is none.
   */
  function ReplaceFirst(s: string, pat: string, replacement: string): (r: string)
    ensures IndexOf(s, pat).None? ==> r == s
    ensures IndexOf(s, pat).Some? ==> var k := IndexOf(s, pat).value;
      r == s[..k] + replacement + s[k + |pat|..]
  {
    match IndexOf(s, pat)
    case None => s
    case Some(k) => s[..k] + replacement + s[k + |pat|..]
  }

  /** `xs.join(sep)`. */
  function Join(xs: seq<string>, sep: string): string
  {
    if |xs| == 0 then ""
    else if |xs| == 1 then xs[0]
    else xs[0] + sep + Join(xs[1..], sep)
  }

  /** Joining two non-empty lists is joining each and putting the separator between. */
  lemma {:induction false} JoinAppend(xs: seq<string>, ys: seq<string>, sep: string)
    requires xs != [] && ys != []
    ensures Join(xs + ys, sep) == Join(xs, sep) + sep + Join(ys, sep)
    decreases |xs|
  {
    if |xs| == 1 {
      assert (xs + ys)[0] == xs[0];
      assert (xs + ys)[1..] == ys;
    } else {
      JoinAppend(xs[1..], ys, sep);
      assert (xs + ys)[0] == xs[0];
      assert (xs + ys)[1..] == xs[1..] + ys;
    }
  }

  /** Every element of a joined list can be found in the joined string. */
  lemma {:induction false} JoinContains(xs: seq<string>, sep: string, i: nat)
    requires i < |xs|
    ensures exists k: nat :: OccursAt(Join(xs, sep), xs[i], k)
    decreases |xs|
  {
    var j := Join(xs, sep);
    if i == 0 {
      assert j[0..|xs[0]|] == xs[0];
      assert OccursAt(j, xs[i], 0);
    } else {
      JoinContains(xs[1..], sep, i - 1);
      var rest := Join(xs[1..], sep);
      var k: nat :| OccursAt(rest, xs[1..][i - 1], k);
      var offset := |xs[0]| + |sep|;
      assert j == xs[0] + sep + rest;
      assert j[offset + k..offset + k + |xs[i]|] == rest[k..k + |xs[i]|];
      assert OccursAt(j, xs[i], offset + k);
    }
  }
}

=== FILE: wrappers.dfy ===
/** Failure-carrying datatypes shared by every module of the model. */
module Wrappers {

  /** A value that may be absent: `undefined` / `null` in TypeScript. */
  datatype Option<+T> = None | Some(value: T) {
    function GetOr(default: T): T {
      match this
      case Some(v) => v
      case None => default
    }
  }

  /** The outcome of an operation that may throw. */
  datatype Result<+T, +E> = Ok(value: T) | Err(error: E) {
    predicate IsFailure() {
      Err?
    }
  }

  /**
   * A body field read without a default: left out of the JSON, sent as an
   * explicit null (which an optional marker lets through), or sent with a value.
   */
  datatype FieldPatch<+T> = Omitted | ExplicitNull | Supplied(value: T)

  /** The outcome of a check that returns nothing on success (a guard). */
  datatype Outcome<+E> = Pass | Fail(error: E)
}

/** The HTTP exceptions the services throw, with the message each carries. */
module Errors {

  datatype ErrorKind =
    | BadRequest     // 400, raised by the request validation pipe
    | Unauthorized   // 401
    | Forbidden      // 403
    | NotFound       // 404
    | Conflict       // 409
    | InternalError  // 500, an uncaught exception such as a parse failure

  datatype ApiError = ApiError(kind: ErrorKind, message: string)

  function StatusCode(k: ErrorKind): (code: nat)
    ensures 400 <= code < 600
    ensures code < 500 <==> !k.InternalError?
  {
    match k
    case BadRequest => 400
    case Unauthorized => 401
    case Forbidden => 403
    case NotFound => 404
    case Conflict => 409
    case InternalError => 500
  }
}
